=== FILE: README.md ===
# Tá no Prego! — a Dafny model of the debt ledger

"Tá no Prego!" is a browser-local debt tracker for a small shop. A shop
registers under a login name. It keeps a list of customers ("debtors"). Each
debtor has an ordered list of owed items. An item is paid off by deleting
it, or all of a debtor's items at once ("Quitar Tudo"). A "smart add" box
sends a sentence to an external parser. The parser's reply (name, amount,
description) becomes one debt, either on the first debtor whose name matches
or on a new debtor.

This project models that bookkeeping as pure functions over immutable values:

- `Types` — the records of `types.ts`. Amounts are integer cents and dates
  are integer timestamps.
- `Folds` — the one aggregation shape every `reduce` in the source uses,
  `acc + f(x)` from 0.
- `Text` — the JavaScript string operations the code relies on:
  `toLowerCase`, the `\s` class, `trim`, `includes`, `replace(/\s/g, '')`.
- `Ledger` — the debtor-list handlers of `App.tsx` and their effect on the
  header totals and on id distinctness.
- `Auth` — the plaintext user table behind `handleLogin` and
  `handleRegister`.
- `DebtorCard`, `TransactionHistory`, `DebtorModal`, `LoginScreen` — one
  module per component. Each holds that component's derived values and the
  calls its handlers make.
- `App` — the App component's state (`Session`) and the wiring of the
  screens' callbacks to the handlers.

Fresh uuids, "now", the parsed amount of a text field, the answers to
`confirm` dialogs and the smart-add reply are all parameters.

## Model

| member | source | states |
|---|---|---|
| Folds.SumAppend | App.tsx:85-88 | a sum reduction over a concatenation is the sum of the parts; this is the fold behind `totalReceivable` (`Ledger.TotalReceivable`) and both `totalDebt` values (`DebtorCard.Balance`, `Types.Owed`) |
| Types.OwedSnoc | App.tsx:113 | appending an item raises a list's unsigned total by exactly its amount |
| Text.LowerChar | components/LoginScreen.tsx:70 | a modelled capital becomes the letter 32 code points above it (its Unicode lower-case form); other characters are unchanged; the result is never a capital and is whitespace exactly when the input was |
| Text.LowerIgnoresCase | App.tsx:153 | two strings that differ only in the case of modelled letters lower-case to the same string, so names match regardless of case |
| Text.LowerIdempotent | components/LoginScreen.tsx:70 | lower-casing twice equals lower-casing once |
| Text.StripSpaces | components/LoginScreen.tsx:70 | removing `\s` leaves no whitespace, keeps only characters of the input, and is the identity on whitespace-free input |
| Text.StripSpacesKeepsCharacters | components/LoginScreen.tsx:70 | every non-whitespace character survives the stripping exactly as often as the input holds it |
| Text.StripSpacesAppend | components/LoginScreen.tsx:70 | stripping distributes over concatenation, so the surviving characters keep their input order |
| Text.LowerStripCommute | components/LoginScreen.tsx:70 | lower-casing commutes with whitespace removal |
| Text.Trim | App.tsx:94 | `trim` yields the slice after the leading whitespace, with only whitespace after it, no whitespace at either end; it is empty exactly when the input is all whitespace |
| Text.IncludesIff | App.tsx:153 | the left-to-right `includes` scan succeeds exactly when the needle occurs at some position |
| Text.IncludesEmpty | App.tsx:153 | every string includes the empty string, so an empty parsed name matches the first debtor |
| DebtorCard.BalanceIsDebtsMinusPayments | components/DebtorCard.tsx:11-13 | the card's `totalDebt` (`DebtorCard.Balance`: add a debt, subtract a payment) equals the total of the debts minus the total of the payments |
| DebtorCard.AllDebtBalance | components/DebtorCard.tsx:11-13 | when every item is a debt, the signed balance equals the unsigned sum used by the modal and the header |
| DebtorCard.ShowBalance | components/DebtorCard.tsx:44-45 | the shown figure is the absolute value of the balance, red exactly when it is positive, and sign plus figure give back the balance |
| DebtorCard.LastTransaction | components/DebtorCard.tsx:15-17 | the last item is the final element of the list, and there is none exactly when the list is empty |
| DebtorCard.CardOf | components/DebtorCard.tsx:33-56 | the card shows the name, a record count equal to the number of items, a balance that is red exactly when it is positive (zero is green) and from whose figure and colour the balance is recovered, and, exactly when there are items, the final item of the list |
| DebtorCard.CardOfAllDebt | components/DebtorCard.tsx:44-45 | for a debtor holding only debts, the card is red exactly when the modal's total is positive and shows that total's magnitude |
| TransactionHistory.Insert | components/TransactionHistory.tsx:12 | inserting one row adds exactly that row to the multiset of rows |
| TransactionHistory.InsertKeepsOrder | components/TransactionHistory.tsx:12 | inserting into a newest-first list keeps it newest first |
| TransactionHistory.SortByDateDesc | components/TransactionHistory.tsx:12 | the sorted copy is a permutation of the input, in non-increasing date order |
| TransactionHistory.SortIsStable | components/TransactionHistory.tsx:12 | rows that share a date keep their input order (the sort is stable) |
| TransactionHistory.SortKeepsOwed | components/TransactionHistory.tsx:65 | the footer total of the sorted rows equals the sum of the unsorted input |
| TransactionHistory.Render | components/TransactionHistory.tsx:14-65 | the empty-state message is shown exactly when there are no items; otherwise the rows are the stable newest-first sort of the items (a permutation in non-increasing date order) and the footer is the unsigned total |
| TransactionHistory.PayRow | components/TransactionHistory.tsx:47-50 | a row's paid button deletes only after confirmation, and it passes that row's own id |
| DebtorModal.TotalsAgree | components/DebtorModal.tsx:19 | for an all-debt list, the modal's `totalDebt` (`Types.Owed`), the card's `totalDebt` (`DebtorCard.Balance`) and the history footer agree |
| DebtorModal.HandleAdd | components/DebtorModal.tsx:21-31 | with an empty amount or description nothing is called and the fields stay; otherwise exactly one DEBT is added for this debtor with the entered description, and both fields are cleared |
| DebtorModal.OnClearAll | components/DebtorModal.tsx:105-116 | "Quitar Tudo" clears this debtor only when its total is positive (the button exists) and the dialog is confirmed |
| DebtorModal.OnDeleteDebtor | components/DebtorModal.tsx:118-124 | after confirmation it deletes this debtor's id and then closes the sheet; otherwise it does nothing |
| DebtorModal.OnPayRow | components/DebtorModal.tsx:96 | a confirmed row payment deletes, on this debtor, the id of row i of the newest-first table, which is one of this debtor's own items; a cancelled one calls nothing |
| DebtorModal.OnClose | components/DebtorModal.tsx:48 | the close button only closes the sheet |
| LoginScreen.Normalize | components/LoginScreen.tsx:70 | the stored username is the lower-cased sequence of the typed non-whitespace characters, in order; it has no whitespace and no upper-case letters and is no longer than what was typed |
| LoginScreen.NormalizeIdempotent | components/LoginScreen.tsx:70 | normalising twice equals normalising once |
| LoginScreen.NormalizeFixedPoint | components/LoginScreen.tsx:70 | a name that is already lower-case and whitespace-free is stored unchanged |
| LoginScreen.TypeUsername | components/LoginScreen.tsx:67-73 | typing in the username field stores the normalised text and changes nothing else |
| LoginScreen.TypePassword | components/LoginScreen.tsx:85-91 | typing in the password field stores the text as typed and changes nothing else |
| LoginScreen.Toggle | components/LoginScreen.tsx:116-119 | the mode link flips login/register, clears the error and keeps the fields |
| LoginScreen.ToggleTwice | components/LoginScreen.tsx:116-119 | toggling twice restores the mode |
| LoginScreen.Submit | components/LoginScreen.tsx:16-32 | an empty username or password sets "fill all fields" and calls no handler; otherwise register mode calls only `onRegister` and login mode only `onLogin`, with the fields as entered |
| LoginScreen.Settle | components/LoginScreen.tsx:34-41 | a `false` reply sets the mode's own message ("already exists" or "wrong name or password"), a throw sets the generic one, a `true` reply leaves the error alone, and loading ends |
| LoginScreen.SubmitThenSettle | components/LoginScreen.tsx:16-42 | after a dispatched submission the error is empty exactly when the handler reported success |
| Auth.Read | App.tsx:25-26 | the object lookup yields the stored string exactly for stored names, and an inherited member exactly for prototype names that are not stored |
| Auth.LoginMatchesSource | App.tsx:24-31 | the as-written test (truthy and strictly equal) agrees with "stored, non-empty and equal", and a successful login never has an empty password |
| Auth.RegisterAsWritten | App.tsx:33-42 | as written, registration is refused exactly when the lookup is truthy, and otherwise maps the name to the password |
| Auth.Register | App.tsx:33-42 | registration is refused exactly when the name has a non-empty stored password; otherwise the name maps to the password and no other entry changes |
| Auth.RegisterAsWrittenDiffers | App.tsx:34-37 | the as-written and intended registrations differ exactly on prototype member names not held by the table |
| Auth.ConstructorIsRefused | App.tsx:34-37 | on an empty table, registering "constructor" is refused as written and accepted as intended |
| Auth.RegisterThenLogin | App.tsx:24-42 | after a fresh registration with a non-empty password, login succeeds with that password and with no other |
| Auth.RegisterKeepsOtherLogins | App.tsx:38-39 | a registration leaves every other name's login outcome unchanged |
| Ledger.ItemCount | App.tsx:244 | the item count is a natural number, zero for an empty list |
| Ledger.TotalsOfAllItems | App.tsx:85-88 | `totalReceivable` (`Ledger.TotalReceivable`) is the sum of every item in the ledger and the item count is the number of those items |
| Ledger.RemoveId | App.tsx:126 | the filtered list has no item with the id, keeps every other item, invents none, and is unchanged when the id is absent |
| Ledger.RemoveIdAppend | App.tsx:126 | the filter preserves order: it distributes over concatenation |
| Ledger.RemoveIdPartition | App.tsx:126 | the kept and removed items together are exactly the original multiset, and their totals add up to the original total |
| Ledger.ApplyEdit | App.tsx:111-115 | an edit never changes a debtor's id, name or phone, and stamps `updatedAt` with the time of the change |
| Ledger.UpdateWhere | App.tsx:109-118 | the `map` keeps length and order, edits every debtor with the id and leaves every other one equal |
| Ledger.UpdateWhereKeepsIds | App.tsx:109-118 | an edit keeps the set of debtor ids, so distinct ids stay distinct |
| Ledger.UpdateWhereSum | App.tsx:85-88 | with distinct ids, a per-debtor sum changes only by the edited debtor's change |
| Ledger.AddPerson | App.tsx:92-106 | a whitespace-only name leaves the list unchanged; otherwise the list grows by one, the old list is the tail, and the head has the fresh id, the trimmed non-empty name and no items; a new debtor has no phone and is stamped with the time |
| Ledger.AddTransaction | App.tsx:108-119 | the length is kept; every debtor with another id is unchanged; each matching debtor gets exactly one item appended at the end, built from the draft, the fresh id and the time; the edited debtor keeps its phone and is stamped with the time of the change |
| Ledger.DeleteTransaction | App.tsx:121-132 | only the matching debtor changes; it keeps exactly its items with other ids, in order, and loses exactly the items with the id; the edited debtor keeps its phone and is stamped with the time of the change |
| Ledger.ClearAllTransactions | App.tsx:134-145 | only the matching debtor's list is emptied; every other debtor is unchanged; the edited debtor keeps its phone and is stamped with the time of the change |
| Ledger.DeleteDebtor | App.tsx:148 | no remaining debtor has the id, no debtor is invented, and the list is unchanged when the id is absent |
| Ledger.DeleteDebtorKeepsOthers | App.tsx:148 | every debtor with another id is kept, and everything kept was there before |
| Ledger.DeleteDebtorAppend | App.tsx:148 | the filter keeps the remaining debtors in order |
| Ledger.DeleteDebtorSplit | App.tsx:148 | deleting the id of the one debtor that carries it closes the gap |
| Ledger.DeleteDebtorAt | App.tsx:147-150 | with distinct ids, deleting debtor k's id yields the list without position k |
| Ledger.DeleteDebtorTotals | App.tsx:147-150 | with distinct ids, deleting a present debtor shortens the list by one and takes exactly its share off the total |
| Ledger.FindMatch | App.tsx:153 | `find` returns the first debtor whose lower-cased name contains, or is contained in, the lower-cased parsed name; it returns none exactly when no debtor matches |
| Ledger.SmartAdd | App.tsx:152-179 | with a match the list keeps its length; without one a new debtor is prepended holding exactly one DEBT with the parsed amount and description; a new debtor has no phone and is stamped with the time |
| Ledger.SmartAddRoutesToFirstMatch | App.tsx:153-160 | with distinct ids the debt lands on the first matching debtor, appended at the end, and no other debtor changes |
| Ledger.AddTransactionTotals | App.tsx:108-119 | with distinct ids, adding to a present debtor raises the total by the amount and the item count by one; an absent id changes nothing; ids stay distinct |
| Ledger.DeleteTransactionTotals | App.tsx:121-132 | deleting an item lowers the total by exactly the amounts of the removed rows |
| Ledger.ClearAllTotals | App.tsx:134-145 | clearing a debtor takes its whole total and all its items off the header figures |
| Ledger.AddPersonTotals | App.tsx:92-106 | adding a person leaves both totals unchanged and, with a fresh id, keeps ids distinct |
| Ledger.PrependTotals | App.tsx:103 | putting a debtor with a fresh id in front adds its total and item count and keeps ids distinct |
| Ledger.SmartAddTotals | App.tsx:152-179 | on either route, smart add raises the total by the parsed amount and the item count by one, and keeps ids distinct given a fresh debtor id |
| App.HandleLogin | App.tsx:24-31 | login succeeds exactly when the name has a non-empty stored password equal to the given one; on success only the current user changes, on failure nothing does |
| App.HandleRegister | App.tsx:33-42 | uses the corrected `Auth.Register` (see Findings): register fails and leaves table and session unchanged when the name has a non-empty stored password; otherwise it stores the pair, changes no other entry and logs the user in |
| App.HandleLogout | App.tsx:44-48 | logout leaves no current user, an empty debtor list and no open sheet |
| App.SubmitLogin | components/LoginScreen.tsx:16-42 | a whole login-screen submission, registering through the corrected `Auth.Register`: the validation error on empty fields; in login mode no error exactly when the credentials match; in register mode no error exactly when the name is free; no error means only the current user changes, and a registration writes exactly the new name and password into the table; an error implies nothing changed |
| App.RegisterThenLoginRound | App.tsx:24-42 | registering a new shop from the form logs it in, and a later login with the same credentials succeeds |
| App.ConstructorReachesRegister | App.tsx:33-37 | the name "constructor" passes the username normalisation unchanged, and its first registration is refused as written but accepted as intended |
| App.StatsOf | App.tsx:85-90 | the client count is the list length, the receivable total is the sum of every item in the ledger, the item count is how many items there are, and all figures are zero when no debtor holds an item |
| App.NoItemsNoTotals | App.tsx:244 | a list whose debtors hold no items has a zero total and a zero item count |
| App.ToggleAddPerson | App.tsx:255 | the "Novo Cliente" button flips the add-person form and changes nothing else |
| App.SubmitAddPerson | App.tsx:92-106 | a blank name returns early leaving everything as typed; otherwise the debtor is prepended and the form is reset and closed |
| App.SelectDebtor | App.tsx:301 | clicking a card opens that debtor's sheet and changes nothing else |
| App.SelectedDebtor | App.tsx:181 | the open sheet shows the first debtor in the list carrying the selected id, and none only when no debtor carries it |
| App.FindById | App.tsx:181 | `find` by id returns the first listed debtor with that id, or none exactly when no debtor has it |
| App.Perform | App.tsx:309-317 | each sheet call applies its own handler: add, delete-item and clear-all replace the list by `Ledger.AddTransaction`, `Ledger.DeleteTransaction` and `Ledger.ClearAllTransactions` and keep the selection; delete-debtor applies `Ledger.DeleteDebtor` and closes; close only clears the selection; no call changes the current user or the add-person form |
| App.SheetAddRaisesTotal | components/DebtorModal.tsx:21-31 | adding from a sheet raises the receivable total by the entered amount and the item count by one and appends the new DEBT to that debtor; an empty field changes nothing |
| App.SheetDeleteDebtor | components/DebtorModal.tsx:118-124 | a confirmed delete removes exactly that debtor and its total and closes the sheet; a cancelled one changes nothing |
| App.SheetPayRow | components/TransactionHistory.tsx:47-50 | a confirmed row payment deletes, on that debtor only, the item id of row i of the newest-first table and takes exactly the removed amounts off the receivable total; a cancelled one changes nothing |
| App.SheetClearAll | components/DebtorModal.tsx:105-116 | a confirmed "Quitar Tudo" empties that debtor and takes its total off the header; otherwise nothing changes |
| App.OnSmartAddReply | components/SmartAdd.tsx:20-22 | no reply changes nothing; a parsed reply is routed by the smart-add handler |
| App.AddPersonKeepsIdsDistinct | App.tsx:92-106 | with a fresh id, adding a person keeps debtor ids distinct |
| App.SheetCallKeepsIdsDistinct | App.tsx:108-150 | every sheet call keeps debtor ids distinct |
| App.SmartAddKeepsIdsDistinct | App.tsx:152-179 | with a fresh id, smart add keeps debtor ids distinct |
| App.DeleteKeepsDistinct | App.tsx:148 | deleting debtors keeps the remaining ids distinct |

## Findings

| source | as written | input that shows it | evidently intended | confidence | as-written member | corrected member |
|---|---|---|---|---|---|---|
| App.tsx:34-37 | `if (usersDb[user]) return false` reads a plain object, so names of members that every object inherits from Object.prototype look taken | register "constructor" (or "__proto__"; both survive the username normalisation) on a table that does not hold it: it is refused with "already exists" | a name is taken only when the table stores a password for it | not executed; high for "constructor", which is a function and so truthy | Auth.RegisterAsWritten, Auth.ConstructorIsRefused | Auth.Register, Auth.RegisterThenLogin |

The rest of the model (`App.HandleRegister`) uses `Auth.Register`. Login is
not affected: an inherited member is never strictly equal to a password
string (`Auth.LoginMatchesSource`).

## Left out

- Local storage: the load and save effects (App.tsx:53-79), `JSON.parse` and `JSON.stringify`. The user table is an input and an output of the auth handlers. The debtor list is not reloaded on login. A corrupted table that makes `JSON.parse` throw appears only as the `Threw` reply of `LoginScreen.Settle`.
- The smart-add parser (services/geminiService.ts) is a call to an external AI service. Its reply is an arbitrary `Option<AIParsed>`. The blank-input guard of components/SmartAdd.tsx:16 is not modelled.
- Floating-point amounts, `parseFloat` and `toFixed(2)`: amounts are integer cents. The parsed value of the amount field is a parameter of `DebtorModal.HandleAdd`.
- ISO date strings, `new Date(...)`, `toLocaleDateString`: dates are integer timestamps. A comparator that returns NaN for an unparsable date is not modelled.
- `uuidv4()` and "now": fresh ids and times are parameters. Distinct-id results assume the given ids are fresh.
- Ledger.AddTransaction: stamps every matching debtor with the same item id. The source draws one uuid per matching debtor. The two differ only when debtor ids repeat, which fresh ids exclude.
- `confirm` and `alert` dialogs: confirmations are boolean inputs. The informational alerts of `handleAIParsed` are not modelled.
- The 600 ms simulated delay, promises and the exact timing of the loading flag: a submission is `LoginScreen.Submit` followed by `LoginScreen.Settle`.
- Text.LowerChar: models `toLowerCase` only for A–Z and the Latin-1 capitals U+00C0–U+00DE. Other scripts, and mappings that change length, are out of scope.
- JavaScript strings are sequences of UTF-16 code units, while a Dafny `char` is a Unicode scalar value. The model treats each character as one unit, so surrogate pairs, lone surrogates and `length` counted in code units are out of scope.
- React rendering, CSS, icons, the initial letter shown on cards and in the sheet, and the `required` attribute on the sheet's inputs.
- Ledger.AddTransaction and Ledger.SmartAdd: use one time `now` for both the item's `date` and the debtor's `updatedAt`. The source calls `new Date()` separately for each (App.tsx:113-114, 167 and 173), so the two can differ by a few milliseconds.
- The optional `phone` field is carried along but never set by any handler.
- The user table's values are assumed to be strings, as the application writes them.
- "The sort does not mutate its input": every value in the model is immutable, so the copy is implicit.

=== FILE: app.dfy ===
/**
 The App component's state and how its handlers change it (App.tsx): who
 is logged in, the debtor list, the open debtor sheet and the add-person
 form. The handlers of the login screen and of the debtor sheet are wired
 to these transitions here.
 */
module App {
  import opened Types
  import Text
  import Folds
  import Ledger
  import Auth
  import LoginScreen
  import DebtorModal
  import TransactionHistory

  datatype Session = Session(
    currentUser: Option<string>,
    debtors: seq<Debtor>,
    selected: Option<string>,
    newPersonName: string,
    addingPerson: bool)

  /** The result of an auth handler: its boolean reply, the user table to
      write back and the new session. */
  datatype AuthStep = AuthStep(ok: bool, db: Auth.UsersDb, session: Session)

  /** `handleLogin`: on success the user is logged in; on failure nothing changes. */
  function HandleLogin(db: Auth.UsersDb, s: Session, user: string, pass: string): (r: AuthStep)
    ensures r.ok <==> user in db && db[user] != "" && db[user] == pass
    ensures r.db == db
    ensures r.ok ==> r.session == s.(currentUser := Some(user))
    ensures !r.ok ==> r.session == s
  {
    if Auth.Login(db, user, pass) then AuthStep(true, db, s.(currentUser := Some(user)))
    else AuthStep(false, db, s)
  }

  /** `handleRegister`: refused, with the table and session untouched, when
      the name already has a usable password; otherwise the name is stored
      with its password, no other entry changes, and the user is logged in. */
  function HandleRegister(db: Auth.UsersDb, s: Session, user: string, pass: string): (r: AuthStep)
    ensures !r.ok <==> user in db && db[user] != ""
    ensures !r.ok ==> r.db == db && r.session == s
    ensures r.ok ==> r.db.Keys == db.Keys + {user} && r.db[user] == pass
    ensures r.ok ==> (forall k :: k in db && k != user ==> r.db[k] == db[k])
    ensures r.ok ==> r.session == s.(currentUser := Some(user))
  {
    match Auth.Register(db, user, pass)
    case None => AuthStep(false, db, s)
    case Some(db') => AuthStep(true, db', s.(currentUser := Some(user)))
  }

  /** `handleLogout`: nobody logged in, no debtors in memory, no sheet open. */
  function HandleLogout(s: Session): (r: Session)
    ensures r.currentUser.None? && r.debtors == [] && r.selected.None?
    ensures r.newPersonName == s.newPersonName && r.addingPerson == s.addingPerson
  {
    s.(currentUser := None, debtors := [], selected := None)
  }

  /** One submission of the login screen against the stored user table:
      validation, the handler for the form's mode, and the error it leaves. */
  datatype LoginRound = LoginRound(form: LoginScreen.Form, db: Auth.UsersDb, session: Session)

  function SubmitLogin(f: LoginScreen.Form, db: Auth.UsersDb, s: Session): (r: LoginRound)
    ensures (f.username == "" || f.password == "") ==>
              r.form.error == LoginScreen.FillAllFields && r.db == db && r.session == s
    ensures f.username != "" && f.password != "" && !f.registering ==>
              r.db == db && (r.form.error == "" <==> Auth.Login(db, f.username, f.password))
    ensures f.username != "" && f.password != "" && f.registering ==>
              (r.form.error == "" <==> !Auth.HasAccount(db, f.username))
    ensures r.form.error == "" ==> r.session == s.(currentUser := Some(f.username))
    ensures f.registering && r.form.error == "" ==> r.db == db[f.username := f.password]
    ensures r.form.error != "" ==> r.session == s && r.db == db
  {
    match LoginScreen.Submit(f)
    case Rejected(f') => LoginRound(f', db, s)
    case Pending(req, f') =>
      var step := match req
        case LoginRequest(u, p) => HandleLogin(db, s, u, p)
        case RegisterRequest(u, p) => HandleRegister(db, s, u, p);
      LoginRound(LoginScreen.Settle(f', LoginScreen.Resolved(step.ok)), step.db, step.session)
  }

  /** Registering a new shop from the login screen and logging in again later
      with the same credentials succeeds. */
  lemma RegisterThenLoginRound(f: LoginScreen.Form, db: Auth.UsersDb, s: Session, s2: Session)
    requires f.registering && f.username != "" && f.password != ""
    requires !Auth.HasAccount(db, f.username)
    ensures var r := SubmitLogin(f, db, s);
      && r.form.error == ""
      && r.session.currentUser == Some(f.username)
      && SubmitLogin(LoginScreen.Toggle(f), r.db, s2).form.error == ""
  {
    Auth.RegisterThenLogin(db, f.username, f.password, f.password);
  }

  /** The name "constructor" survives the username normalisation, and with the
      as-written lookup a first registration of it is refused on any table
      that does not hold it. */
  lemma ConstructorReachesRegister(db: Auth.UsersDb, pass: string)
    requires "constructor" !in db
    ensures LoginScreen.Normalize("constructor") == "constructor"
    ensures Auth.RegisterAsWritten(db, "constructor", pass).None?
    ensures Auth.Register(db, "constructor", pass).Some?
  {
    LoginScreen.NormalizeFixedPoint("constructor");
    assert "constructor" in Auth.ProtoMembers;
  }

  // ---------------------------------------------------------------------
  // The debtor list
  // ---------------------------------------------------------------------

  /** The header figures: total receivable, number of clients, number of items. */
  datatype Stats = Stats(receivable: int, people: nat, items: nat)

  function StatsOf(s: Session): (r: Stats)
    ensures r.people == |s.debtors|
    ensures r.receivable == Owed(Ledger.AllItems(s.debtors)) && r.items == |Ledger.AllItems(s.debtors)|
    ensures s.debtors == [] ==> r.receivable == 0 && r.items == 0
    ensures (forall i :: 0 <= i < |s.debtors| ==> s.debtors[i].transactions == []) ==> r.receivable == 0 && r.items == 0
  {
    NoItemsNoTotals(s.debtors);
    Ledger.TotalsOfAllItems(s.debtors);
    Stats(Ledger.TotalReceivable(s.debtors), |s.debtors|, Ledger.ItemCount(s.debtors))
  }

  lemma {:induction false} NoItemsNoTotals(ds: seq<Debtor>)
    ensures (forall i :: 0 <= i < |ds| ==> ds[i].transactions == []) ==>
              Ledger.TotalReceivable(ds) == 0 && Ledger.ItemCount(ds) == 0
    decreases |ds|
  {
    if |ds| > 0 && forall i :: 0 <= i < |ds| ==> ds[i].transactions == [] {
      Folds.SumCons(ds, Ledger.DebtorOwed);
      Folds.SumCons(ds, Ledger.ItemsOf);
      NoItemsNoTotals(ds[1..]);
      assert forall i :: 0 <= i < |ds[1..]| ==> ds[1..][i].transactions == [] by {
        forall i | 0 <= i < |ds[1..]| ensures ds[1..][i].transactions == [] {
          assert ds[1..][i] == ds[i + 1];
        }
      }
    }
  }

  /** The "Novo Cliente" button. */
  function ToggleAddPerson(s: Session): (r: Session)
    ensures r.addingPerson != s.addingPerson
    ensures r.(addingPerson := s.addingPerson) == s
  {
    s.(addingPerson := !s.addingPerson)
  }

  /** Submitting the add-person form: a blank name returns early and leaves
      the form as typed; otherwise the new debtor goes to the front and the
      form is reset and closed. */
  function SubmitAddPerson(s: Session, freshId: string, now: int): (r: Session)
    ensures Text.Trim(s.newPersonName) == [] ==> r == s
    ensures Text.Trim(s.newPersonName) != [] ==>
              && r.debtors == Ledger.AddPerson(s.debtors, s.newPersonName, freshId, now)
              && |r.debtors| == |s.debtors| + 1 && r.debtors[1..] == s.debtors
              && r.newPersonName == "" && !r.addingPerson
              && r.currentUser == s.currentUser && r.selected == s.selected
  {
    if Text.Trim(s.newPersonName) == [] then s
    else s.(debtors := Ledger.AddPerson(s.debtors, s.newPersonName, freshId, now), newPersonName := "", addingPerson := false)
  }

  /** Clicking a card opens that debtor's sheet. */
  function SelectDebtor(s: Session, id: string): (r: Session)
    ensures r.selected == Some(id)
    ensures r.(selected := s.selected) == s
  {
    s.(selected := Some(id))
  }

  /** `debtors.find(d => d.id === selectedDebtorId)`: the sheet shown, if any. */
  function SelectedDebtor(s: Session): (r: Option<Debtor>)
    ensures s.selected.None? ==> r.None?
    ensures r.Some? ==> r.value in s.debtors && Some(r.value.id) == s.selected
    ensures r.Some? ==> exists k :: 0 <= k < |s.debtors| && s.debtors[k] == r.value
                          && forall j :: 0 <= j < k ==> s.debtors[j].id != r.value.id
    ensures s.selected.Some? && r.None? ==> forall i :: 0 <= i < |s.debtors| ==> s.debtors[i].id != s.selected.value
  {
    match s.selected
    case None => None
    case Some(id) => FindById(s.debtors, id)
  }

  /** `find` by id: the first debtor carrying it. */
  function FindById(ds: seq<Debtor>, id: string): (r: Option<Debtor>)
    ensures r.Some? ==> r.value in ds && r.value.id == id
    ensures r.Some? ==> exists k :: 0 <= k < |ds| && ds[k] == r.value
                          && forall j :: 0 <= j < k ==> ds[j].id != id
    ensures r.None? ==> forall i :: 0 <= i < |ds| ==> ds[i].id != id
    decreases |ds|
  {
    if |ds| == 0 then None
    else if ds[0].id == id then Some(ds[0])
    else
      var r := FindById(ds[1..], id);
      FirstHitInTail(ds, id, r);
      r
  }

  /** A first hit in the tail is a first hit in the list when the head misses. */
  lemma FirstHitInTail(ds: seq<Debtor>, id: string, r: Option<Debtor>)
    requires |ds| > 0 && ds[0].id != id
    requires r.Some? ==> exists k :: 0 <= k < |ds[1..]| && ds[1..][k] == r.value
                           && forall j :: 0 <= j < k ==> ds[1..][j].id != id
    ensures r.Some? ==> exists k :: 0 <= k < |ds| && ds[k] == r.value
                          && forall j :: 0 <= j < k ==> ds[j].id != id
  {
    if r.Some? {
      var k :| 0 <= k < |ds[1..]| && ds[1..][k] == r.value && forall j :: 0 <= j < k ==> ds[1..][j].id != id;
      assert ds[k + 1] == r.value;
      forall j | 0 <= j < k + 1 ensures ds[j].id != id {
        if j > 0 { assert ds[j] == ds[1..][j - 1]; }
      }
    }
  }

  /** Carries out one call of the debtor sheet on the session, with the fresh
      item id and time an added item needs. */
  function Perform(s: Session, c: DebtorModal.Call, txId: string, now: int): (r: Session)
    ensures r.currentUser == s.currentUser
    ensures r.newPersonName == s.newPersonName && r.addingPerson == s.addingPerson
    ensures c.Close? ==> r == s.(selected := None)
    ensures c.DeleteDebtor? ==> r.selected.None? && r.debtors == Ledger.DeleteDebtor(s.debtors, c.debtorId)
    ensures c.AddTx? ==> r.debtors == Ledger.AddTransaction(s.debtors, c.debtorId, c.draft, txId, now)
    ensures c.DeleteTx? ==> r.debtors == Ledger.DeleteTransaction(s.debtors, c.debtorId, c.tId, now)
    ensures c.ClearAll? ==> r.debtors == Ledger.ClearAllTransactions(s.debtors, c.debtorId, now)
    ensures !c.Close? && !c.DeleteDebtor? ==> r.selected == s.selected && |r.debtors| == |s.debtors|
  {
    match c
    case AddTx(id, draft) => s.(debtors := Ledger.AddTransaction(s.debtors, id, draft, txId, now))
    case DeleteTx(id, tId) => s.(debtors := Ledger.DeleteTransaction(s.debtors, id, tId, now))
    case ClearAll(id) => s.(debtors := Ledger.ClearAllTransactions(s.debtors, id, now))
    case DeleteDebtor(id) => s.(debtors := Ledger.DeleteDebtor(s.debtors, id), selected := None)
    case Close => s.(selected := None)
  }

  /** Carries out a handler's calls in order. */
  function PerformAll(s: Session, cs: seq<DebtorModal.Call>, txId: string, now: int): (r: Session)
    ensures cs == [] ==> r == s
    decreases |cs|
  {
    if |cs| == 0 then s else PerformAll(Perform(s, cs[0], txId, now), cs[1..], txId, now)
  }

  /** Adding an item from a debtor's sheet raises the receivable total by the
      entered amount and the item count by one; an empty field changes nothing. */
  lemma SheetAddRaisesTotal(s: Session, k: nat, f: DebtorModal.Form, cents: int, txId: string, now: int)
    requires UniqueIds(s.debtors)
    requires k < |s.debtors|
    ensures var step := DebtorModal.HandleAdd(s.debtors[k], f, cents);
      var r := PerformAll(s, step.calls, txId, now);
      && (f.amount == "" || f.desc == "" ==> r == s)
      && (f.amount != "" && f.desc != "" ==>
            && Ledger.TotalReceivable(r.debtors) == Ledger.TotalReceivable(s.debtors) + cents
            && Ledger.ItemCount(r.debtors) == Ledger.ItemCount(s.debtors) + 1
            && r.debtors[k].transactions == s.debtors[k].transactions + [Transaction(txId, cents, f.desc, now, Debt)]
            && r.selected == s.selected)
  {
    var d := s.debtors[k];
    if f.amount != "" && f.desc != "" {
      var draft := Draft(cents, f.desc, Debt);
      assert d.id in Ids(s.debtors);
      Ledger.AddTransactionTotals(s.debtors, d.id, draft, txId, now);
      var r := PerformAll(s, [DebtorModal.AddTx(d.id, draft)], txId, now);
      assert r == Perform(s, DebtorModal.AddTx(d.id, draft), txId, now);
      var ts := r.debtors[k].transactions;
      assert ts == ts[..|d.transactions|] + [ts[|d.transactions|]];
    }
  }

  /** Confirming the delete of a debtor's sheet removes exactly that debtor
      and its total, and closes the sheet; cancelling changes nothing. */
  lemma SheetDeleteDebtor(s: Session, k: nat, confirmed: bool, txId: string, now: int)
    requires UniqueIds(s.debtors)
    requires k < |s.debtors|
    ensures var r := PerformAll(s, DebtorModal.OnDeleteDebtor(s.debtors[k], confirmed), txId, now);
      && (!confirmed ==> r == s)
      && (confirmed ==>
            && r.debtors == s.debtors[..k] + s.debtors[k + 1..]
            && Ledger.TotalReceivable(r.debtors) == Ledger.TotalReceivable(s.debtors) - Ledger.DebtorOwed(s.debtors[k])
            && r.selected.None?)
  {
    if confirmed {
      var d := s.debtors[k];
      Ledger.DeleteDebtorAt(s.debtors, k);
      Ledger.DeleteDebtorTotals(s.debtors, k);
      var s1 := Perform(s, DebtorModal.DeleteDebtor(d.id), txId, now);
      assert PerformAll(s, [DebtorModal.DeleteDebtor(d.id), DebtorModal.Close], txId, now)
          == PerformAll(s1, [DebtorModal.Close], txId, now);
    }
  }

  /** Paying a row of a debtor's sheet removes, on that debtor only, the item
      of that row of the newest-first table, and takes exactly the removed
      amount off the header; cancelling changes nothing. */
  lemma SheetPayRow(s: Session, k: nat, i: nat, confirmed: bool, txId: string, now: int)
    requires UniqueIds(s.debtors)
    requires k < |s.debtors| && i < |s.debtors[k].transactions|
    ensures var d := s.debtors[k];
      var r := PerformAll(s, DebtorModal.OnPayRow(d, i, confirmed), txId, now);
      var tId := TransactionHistory.SortByDateDesc(d.transactions)[i].id;
      && (!confirmed ==> r == s)
      && (confirmed ==>
            && r.debtors == Ledger.DeleteTransaction(s.debtors, d.id, tId, now)
            && r.debtors[k].transactions == Ledger.RemoveId(d.transactions, tId)
            && Ledger.TotalReceivable(r.debtors) == Ledger.TotalReceivable(s.debtors) - Owed(Ledger.WithId(d.transactions, tId))
            && r.selected == s.selected)
  {
    var d := s.debtors[k];
    if confirmed {
      var tId := TransactionHistory.SortByDateDesc(d.transactions)[i].id;
      Ledger.DeleteTransactionTotals(s.debtors, d.id, tId, now, k);
      assert PerformAll(s, [DebtorModal.DeleteTx(d.id, tId)], txId, now) == Perform(s, DebtorModal.DeleteTx(d.id, tId), txId, now);
    }
  }

  /** Confirming "Quitar Tudo" takes the debtor's whole total off the header;
      without the button or the confirmation nothing changes. */
  lemma SheetClearAll(s: Session, k: nat, confirmed: bool, txId: string, now: int)
    requires UniqueIds(s.debtors)
    requires k < |s.debtors|
    ensures var r := PerformAll(s, DebtorModal.OnClearAll(s.debtors[k], confirmed), txId, now);
      && (!(confirmed && Owed(s.debtors[k].transactions) > 0) ==> r == s)
      && (confirmed && Owed(s.debtors[k].transactions) > 0 ==>
            && r.debtors[k].transactions == []
            && Ledger.TotalReceivable(r.debtors) == Ledger.TotalReceivable(s.debtors) - Owed(s.debtors[k].transactions))
  {
    var d := s.debtors[k];
    if confirmed && Owed(d.transactions) > 0 {
      Ledger.ClearAllTotals(s.debtors, d.id, now, k);
      assert PerformAll(s, [DebtorModal.ClearAll(d.id)], txId, now) == Perform(s, DebtorModal.ClearAll(d.id), txId, now);
    }
  }

  /** The smart-add reply: no reply changes nothing; a parsed reply is routed
      by `handleAIParsed`. */
  function OnSmartAddReply(s: Session, reply: Option<AIParsed>, newDebtorId: string, txId: string, now: int): (r: Session)
    ensures reply.None? ==> r == s
    ensures reply.Some? ==> r == s.(debtors := Ledger.SmartAdd(s.debtors, reply.value, newDebtorId, txId, now))
  {
    match reply
    case None => s
    case Some(data) => s.(debtors := Ledger.SmartAdd(s.debtors, data, newDebtorId, txId, now))
  }

  /** The ledger invariant: debtor ids stay distinct through every handler
      when the ids they are given are fresh. */
  lemma AddPersonKeepsIdsDistinct(s: Session, freshId: string, now: int)
    requires UniqueIds(s.debtors) && freshId !in Ids(s.debtors)
    ensures UniqueIds(SubmitAddPerson(s, freshId, now).debtors)
  {
    Ledger.AddPersonTotals(s.debtors, s.newPersonName, freshId, now);
  }

  lemma SheetCallKeepsIdsDistinct(s: Session, c: DebtorModal.Call, txId: string, now: int)
    requires UniqueIds(s.debtors)
    ensures UniqueIds(Perform(s, c, txId, now).debtors)
  {
    match c
    case AddTx(id, draft) => Ledger.AddTransactionTotals(s.debtors, id, draft, txId, now);
    case DeleteTx(id, tId) => Ledger.UpdateWhereKeepsIds(s.debtors, id, Ledger.Remove(tId, now));
    case ClearAll(id) => Ledger.UpdateWhereKeepsIds(s.debtors, id, Ledger.Clear(now));
    case DeleteDebtor(id) => DeleteKeepsDistinct(s.debtors, id);
    case Close =>
  }

  lemma SmartAddKeepsIdsDistinct(s: Session, reply: Option<AIParsed>, freshId: string, txId: string, now: int)
    requires UniqueIds(s.debtors) && freshId !in Ids(s.debtors)
    ensures UniqueIds(OnSmartAddReply(s, reply, freshId, txId, now).debtors)
  {
    if reply.Some? {
      Ledger.SmartAddTotals(s.debtors, reply.value, freshId, txId, now);
    }
  }

  lemma {:induction false} DeleteKeepsDistinct(ds: seq<Debtor>, id: string)
    requires UniqueIds(ds)
    ensures UniqueIds(Ledger.DeleteDebtor(ds, id))
    decreases |ds|
  {
    if |ds| > 0 {
      DeleteKeepsDistinct(ds[1..], id);
      if ds[0].id != id {
        var rest := Ledger.DeleteDebtor(ds[1..], id);
        Ledger.DeleteDebtorKeepsOthers(ds[1..], id);
        var r := [ds[0]] + rest;
        forall i, j | 0 <= i < j < |r| ensures r[i].id != r[j].id {
          if i == 0 {
            assert r[j] in ds[1..];
          } else {
            assert r[i] == rest[i - 1] && r[j] == rest[j - 1];
          }
        }
      }
    }
  }
}

=== FILE: auth.dfy ===
/**
 The plaintext user table of App.tsx (`handleLogin`, `handleRegister`): a
 map from login name to password, read from and written back to local
 storage. The storage I/O itself is not modelled; the parsed table is an
 input and the table to write back is an output.

 The source reads the table as a plain JavaScript object, so a lookup of a
 name the table does not hold can still find a member every object inherits
 (`usersDb["constructor"]` is a function, which is truthy). `Read` models
 that lookup as written; `Register` is the evidently intended behaviour that
 only the names stored in the table are taken.
 */
module Auth {
  import opened Types

  type UsersDb = map<string, string>

  /** The names every parsed JSON object inherits from Object.prototype. */
  const ProtoMembers: set<string> := {
    "constructor", "__proto__", "__defineGetter__", "__defineSetter__",
    "__lookupGetter__", "__lookupSetter__", "hasOwnProperty", "isPrototypeOf",
    "propertyIsEnumerable", "toString", "toLocaleString", "valueOf"
  }

  /** What `usersDb[user]` evaluates to. */
  datatype JsValue = Undefined | Str(s: string) | InheritedMember

  function Read(db: UsersDb, user: string): (v: JsValue)
    ensures v.Str? <==> user in db
    ensures v.Str? ==> v.s == db[user]
    ensures v.InheritedMember? <==> user !in db && user in ProtoMembers
  {
    if user in db then Str(db[user])
    else if user in ProtoMembers then InheritedMember
    else Undefined
  }

  /** JavaScript truthiness of a lookup: a non-empty string or an object. */
  predicate Truthy(v: JsValue)
  {
    (v.Str? && v.s != "") || v.InheritedMember?
  }

  /** The table holds a usable password for `user`. */
  predicate HasAccount(db: UsersDb, user: string)
  {
    user in db && db[user] != ""
  }

  /** `usersDb[user] && usersDb[user] === pass`, as written. */
  predicate LoginAsWritten(db: UsersDb, user: string, pass: string)
  {
    Truthy(Read(db, user)) && Read(db, user) == Str(pass)
  }

  /** A login succeeds when the stored password is non-empty and equal to the given one. */
  predicate Login(db: UsersDb, user: string, pass: string)
  {
    HasAccount(db, user) && db[user] == pass
  }

  /** Inherited members are never strictly equal to a password string, so
      the lookup quirk does not reach login: both readings agree. */
  lemma LoginMatchesSource(db: UsersDb, user: string, pass: string)
    ensures LoginAsWritten(db, user, pass) <==> Login(db, user, pass)
    ensures Login(db, user, pass) ==> pass != ""
  {
  }

  /** `handleRegister` as written: refused when the lookup is truthy,
      otherwise the table with `user` mapped to `pass`. */
  function RegisterAsWritten(db: UsersDb, user: string, pass: string): (r: Option<UsersDb>)
    ensures r.None? <==> Truthy(Read(db, user))
    ensures r.Some? ==> r.value == db[user := pass]
  {
    if Truthy(Read(db, user)) then None else Some(db[user := pass])
  }

  /** `handleRegister` as intended: refused exactly when the table already
      holds a usable password for `user`; otherwise `user` maps to `pass`
      and no other entry changes. */
  function Register(db: UsersDb, user: string, pass: string): (r: Option<UsersDb>)
    ensures r.None? <==> HasAccount(db, user)
    ensures r.Some? ==> r.value.Keys == db.Keys + {user} && r.value[user] == pass
    ensures r.Some? ==> forall k :: k in db && k != user ==> r.value[k] == db[k]
  {
    if HasAccount(db, user) then None else Some(db[user := pass])
  }

  /** The two readings differ only on inherited member names the table does not hold. */
  lemma RegisterAsWrittenDiffers(db: UsersDb, user: string, pass: string)
    ensures (RegisterAsWritten(db, user, pass) != Register(db, user, pass)) <==> (user !in db && user in ProtoMembers)
  {
  }

  /** The counterexample: on an empty table, registering "constructor" is
      refused as if the name were taken, though nobody holds it. */
  lemma ConstructorIsRefused(pass: string)
    ensures RegisterAsWritten(map[], "constructor", pass) == None
    ensures Register(map[], "constructor", pass) == Some(map["constructor" := pass])
  {
    assert "constructor" in ProtoMembers;
  }

  /** A fresh registration with a non-empty password can then log in with
      that password, and with no other. */
  lemma RegisterThenLogin(db: UsersDb, user: string, pass: string, other: string)
    requires !HasAccount(db, user)
    requires pass != ""
    ensures Register(db, user, pass).Some?
    ensures Login(Register(db, user, pass).value, user, pass)
    ensures other != pass ==> !Login(Register(db, user, pass).value, user, other)
  {
  }

  /** Registering leaves every other account able to log in exactly as before. */
  lemma RegisterKeepsOtherLogins(db: UsersDb, user: string, pass: string, u: string, p: string)
    requires Register(db, user, pass).Some?
    requires u != user
    ensures Login(Register(db, user, pass).value, u, p) <==> Login(db, u, p)
  {
  }
}

=== FILE: debtor_card.dfy ===
/**
 The summary card shown for each debtor (components/DebtorCard.tsx): a
 signed balance, its display rule, the record count and the latest item.
 */
module DebtorCard {
  import opened Types
  import Folds

  /** A transaction's contribution to the card's reduce: `acc + amount` for a
      debt, `acc - amount` for a payment. */
  function Signed(t: Transaction): int
  {
    if t.kind == Debt then t.amount else -t.amount
  }

  /** The card's `totalDebt`: the left fold of the signed contributions. */
  function Balance(ts: seq<Transaction>): int
  {
    Folds.Sum(ts, Signed)
  }

  /** The items of a given type, in their original order. */
  function OfKind(ts: seq<Transaction>, k: TxType): (r: seq<Transaction>)
    ensures forall i :: 0 <= i < |r| ==> r[i].kind == k
    ensures |r| <= |ts|
    decreases |ts|
  {
    if |ts| == 0 then []
    else if ts[0].kind == k then [ts[0]] + OfKind(ts[1..], k)
    else OfKind(ts[1..], k)
  }

  /** Reference reading of the balance: everything owed minus everything paid. */
  lemma {:induction false} BalanceIsDebtsMinusPayments(ts: seq<Transaction>)
    ensures Balance(ts) == Owed(OfKind(ts, Debt)) - Owed(OfKind(ts, Payment))
    decreases |ts|
  {
    if |ts| > 0 {
      Folds.SumCons(ts, Signed);
      BalanceIsDebtsMinusPayments(ts[1..]);
      if ts[0].kind == Debt {
        Folds.SumCons(OfKind(ts, Debt), Amount);
        assert OfKind(ts, Debt)[1..] == OfKind(ts[1..], Debt);
      } else {
        Folds.SumCons(OfKind(ts, Payment), Amount);
        assert OfKind(ts, Payment)[1..] == OfKind(ts[1..], Payment);
      }
    }
  }

  /** When every item is a debt (the only kind the application creates), the
      signed balance equals the unsigned total used by the modal and the header. */
  lemma AllDebtBalance(ts: seq<Transaction>)
    requires AllDebt(ts)
    ensures Balance(ts) == Owed(ts)
  {
    Folds.SumPointwise(ts, Signed, Amount);
  }

  /** How the balance is rendered: its magnitude, in red or in green. */
  datatype Shown = Shown(magnitude: nat, red: bool)

  /** `Math.abs(totalDebt)`, red exactly when something is owed. */
  function ShowBalance(b: int): (r: Shown)
    ensures r.red <==> b > 0
    ensures r.magnitude == b || r.magnitude == -b
    ensures (if r.red then r.magnitude else -(r.magnitude as int)) == b
  {
    if b > 0 then Shown(b, true) else Shown(-b, false)
  }

  /** The final element of the list, if there is one. */
  function LastTransaction(ts: seq<Transaction>): (r: Option<Transaction>)
    ensures r.None? <==> |ts| == 0
    ensures r.Some? ==> r.value == ts[|ts| - 1] && r.value in ts
  {
    if |ts| > 0 then Some(ts[|ts| - 1]) else None
  }

  /** What a card shows about a debtor. */
  datatype Card = Card(name: string, records: nat, balance: Shown, last: Option<Transaction>)

  function CardOf(d: Debtor): (c: Card)
    ensures c.name == d.name
    ensures c.records == |d.transactions|
    ensures c.balance.red <==> Balance(d.transactions) > 0
    ensures (if c.balance.red then c.balance.magnitude else -(c.balance.magnitude as int)) == Balance(d.transactions)
    ensures c.last.None? <==> d.transactions == []
    ensures c.last.Some? ==> c.last.value == d.transactions[|d.transactions| - 1]
  {
    Card(d.name, |d.transactions|, ShowBalance(Balance(d.transactions)), LastTransaction(d.transactions))
  }

  /** For a debtor holding only debts the card agrees with the modal's total:
      red exactly when that total is positive, showing its magnitude. */
  lemma CardOfAllDebt(d: Debtor)
    requires AllDebt(d.transactions)
    ensures CardOf(d).balance.red <==> Owed(d.transactions) > 0
    ensures CardOf(d).balance.magnitude as int == if Owed(d.transactions) > 0 then Owed(d.transactions) else -Owed(d.transactions)
  {
    AllDebtBalance(d.transactions);
  }
}

=== FILE: debtor_modal.dfy ===
/**
 The per-debtor sheet (components/DebtorModal.tsx): the owed total, the
 quick-add form, and the confirm-guarded "Quitar Tudo" and delete buttons.
 The modal never changes the list itself: each handler yields the calls it
 makes on the callbacks App.tsx passes in, in order.
 */
module DebtorModal {
  import opened Types
  import TransactionHistory
  import DebtorCard

  /** A call the modal makes on one of its callback props. */
  datatype Call =
    | AddTx(debtorId: string, draft: Draft)
    | DeleteTx(debtorId: string, tId: string)
    | ClearAll(debtorId: string)
    | DeleteDebtor(debtorId: string)
    | Close

  /** The quick-add form's two text fields. */
  datatype Form = Form(amount: string, desc: string)

  datatype AddStep = AddStep(calls: seq<Call>, form: Form)

  /** The modal's `totalDebt`, the card's balance and the history footer
      agree for a debtor holding only debts. */
  lemma TotalsAgree(d: Debtor)
    requires AllDebt(d.transactions)
    ensures DebtorCard.Balance(d.transactions) == Owed(d.transactions)
    ensures var v := TransactionHistory.Render(d.transactions);
      v.Table? ==> v.total == Owed(d.transactions)
  {
    DebtorCard.AllDebtBalance(d.transactions);
  }

  /** `handleAdd`: with either field empty nothing is called and the fields
      stay; otherwise exactly one debt is added for this debtor with the
      entered description and both fields are cleared. `cents` is the value
      the amount field parses to. */
  function HandleAdd(d: Debtor, f: Form, cents: int): (r: AddStep)
    ensures (f.amount == "" || f.desc == "") ==> r.calls == [] && r.form == f
    ensures (f.amount != "" && f.desc != "") ==>
              && |r.calls| == 1
              && r.calls[0].AddTx? && r.calls[0].debtorId == d.id
              && r.calls[0].draft == Draft(cents, f.desc, Debt)
              && r.form == Form("", "")
  {
    if f.amount == "" || f.desc == "" then AddStep([], f)
    else AddStep([AddTx(d.id, Draft(cents, f.desc, Debt))], Form("", ""))
  }

  /** "Quitar Tudo" is rendered only while something is owed. */
  predicate ClearAllOffered(d: Debtor)
  {
    Owed(d.transactions) > 0
  }

  /** Pressing "Quitar Tudo": this debtor is cleared only when the button is
      there and the dialog is confirmed. */
  function OnClearAll(d: Debtor, confirmed: bool): (calls: seq<Call>)
    ensures calls != [] <==> ClearAllOffered(d) && confirmed
    ensures calls != [] ==> calls == [ClearAll(d.id)]
  {
    if ClearAllOffered(d) && confirmed then [ClearAll(d.id)] else []
  }

  /** The delete button: after confirmation, delete this debtor, then close. */
  function OnDeleteDebtor(d: Debtor, confirmed: bool): (calls: seq<Call>)
    ensures !confirmed ==> calls == []
    ensures confirmed ==> calls == [DeleteDebtor(d.id), Close]
  {
    if confirmed then [DeleteDebtor(d.id), Close] else []
  }

  /** The paid button of the history's row `i`: after confirmation, delete
      that row's item from this debtor. The id is one of this debtor's items. */
  function OnPayRow(d: Debtor, i: nat, confirmed: bool): (calls: seq<Call>)
    requires i < |d.transactions|
    ensures calls != [] <==> confirmed
    ensures calls != [] ==>
              && |calls| == 1 && calls[0].DeleteTx? && calls[0].debtorId == d.id
              && calls[0].tId == TransactionHistory.SortByDateDesc(d.transactions)[i].id
              && exists j :: 0 <= j < |d.transactions| && d.transactions[j].id == calls[0].tId
  {
    var rows := TransactionHistory.SortByDateDesc(d.transactions);
    match TransactionHistory.PayRow(rows, i, confirmed)
    case None => []
    case Some(tId) =>
      assert rows[i] in multiset(d.transactions);
      [DeleteTx(d.id, tId)]
  }

  /** The close button. */
  function OnClose(): (calls: seq<Call>)
    ensures calls == [Close]
  {
    [Close]
  }
}

=== FILE: folds.dfy ===
/**
 The one aggregation shape the application uses: every `reduce` in the
 source is `xs.reduce((acc, x) => acc + f(x), 0)` for some per-element
 contribution `f` (a transaction's amount, its signed amount, a debtor's
 owed total, a debtor's item count). This module defines that left fold once
 and proves the facts the rest of the model needs about it.
 */
module Folds {

  /** `s.reduce((acc, x) => acc + f(x), acc)`, evaluated left to right. */
  function FoldSum<T>(s: seq<T>, f: T -> int, acc: int): int
    decreases |s|
  {
    if |s| == 0 then acc else FoldSum(s[1..], f, acc + f(s[0]))
  }

  /** The fold started from zero, as every call site in the source does. */
  function Sum<T>(s: seq<T>, f: T -> int): int
  {
    FoldSum(s, f, 0)
  }

  /** The starting accumulator only offsets the result. */
  lemma {:induction false} FoldSumShift<T>(s: seq<T>, f: T -> int, acc: int)
    ensures FoldSum(s, f, acc) == acc + Sum(s, f)
    decreases |s|
  {
    if |s| > 0 {
      FoldSumShift(s[1..], f, acc + f(s[0]));
      FoldSumShift(s[1..], f, f(s[0]));
    }
  }

  /** Peeling the first element off the fold. */
  lemma SumCons<T>(s: seq<T>, f: T -> int)
    requires |s| > 0
    ensures Sum(s, f) == f(s[0]) + Sum(s[1..], f)
  {
    FoldSumShift(s[1..], f, f(s[0]));
  }

  /** The fold is additive over concatenation, so the order of evaluation
      of the reduction does not matter for integer contributions. */
  lemma {:induction false} SumAppend<T>(a: seq<T>, b: seq<T>, f: T -> int)
    ensures Sum(a + b, f) == Sum(a, f) + Sum(b, f)
    decreases |a|
  {
    if |a| == 0 {
      assert a + b == b;
    } else {
      SumCons(a + b, f);
      SumCons(a, f);
      assert (a + b)[1..] == a[1..] + b;
      SumAppend(a[1..], b, f);
    }
  }

  /** Two contribution functions that agree on every element give the same sum. */
  lemma {:induction false} SumPointwise<T>(s: seq<T>, f: T -> int, g: T -> int)
    requires forall i :: 0 <= i < |s| ==> f(s[i]) == g(s[i])
    ensures Sum(s, f) == Sum(s, g)
    decreases |s|
  {
    if |s| > 0 {
      SumCons(s, f);
      SumCons(s, g);
      SumPointwise(s[1..], f, g);
    }
  }

  /** Non-negative contributions give a non-negative sum. */
  lemma {:induction false} SumNonNegative<T>(s: seq<T>, f: T -> int)
    requires forall i :: 0 <= i < |s| ==> f(s[i]) >= 0
    ensures Sum(s, f) >= 0
    decreases |s|
  {
    if |s| > 0 {
      SumCons(s, f);
      SumNonNegative(s[1..], f);
    }
  }
}

=== FILE: ledger.dfy ===
/**
 The debtor-list operations of App.tsx: the header totals, adding a person,
 adding, deleting and clearing items, deleting a debtor, and routing a
 smart-add reply to an existing or a new debtor. Every operation is a pure
 transformation of the list; fresh ids and the current time are parameters.
 */
module Ledger {
  import opened Types
  import Text
  import Folds

  // ---------------------------------------------------------------------
  // Aggregates shown in the header and stats row
  // ---------------------------------------------------------------------

  function DebtorOwed(d: Debtor): int
  {
    Owed(d.transactions)
  }

  function ItemsOf(d: Debtor): int
  {
    |d.transactions|
  }

  /** `totalReceivable`: per debtor the unsigned sum of amounts, summed over
      the list, whatever each transaction's type. */
  function TotalReceivable(ds: seq<Debtor>): int
  {
    Folds.Sum(ds, DebtorOwed)
  }

  /** "Itens na conta": the number of items over all debtors. */
  function ItemCount(ds: seq<Debtor>): (n: nat)
    ensures |ds| == 0 ==> n == 0
  {
    Folds.SumNonNegative(ds, ItemsOf);
    Folds.Sum(ds, ItemsOf)
  }

  /** Every item of the ledger, debtor by debtor, each debtor's in order. */
  function AllItems(ds: seq<Debtor>): (r: seq<Transaction>)
    ensures forall i :: 0 <= i < |ds| ==> multiset(ds[i].transactions) <= multiset(r)
    decreases |ds|
  {
    if |ds| == 0 then []
    else
      var rest := AllItems(ds[1..]);
      assert forall i :: 1 <= i < |ds| ==> ds[i] == ds[1..][i - 1];
      ds[0].transactions + rest
  }

  /** Reference reading of the header: the receivable total is the sum of
      every item in the ledger, and the item count is how many there are. */
  lemma {:induction false} TotalsOfAllItems(ds: seq<Debtor>)
    ensures TotalReceivable(ds) == Owed(AllItems(ds))
    ensures ItemCount(ds) == |AllItems(ds)|
    decreases |ds|
  {
    if |ds| > 0 {
      Folds.SumCons(ds, DebtorOwed);
      Folds.SumCons(ds, ItemsOf);
      TotalsOfAllItems(ds[1..]);
      Folds.SumAppend(ds[0].transactions, AllItems(ds[1..]), Amount);
    }
  }

  // ---------------------------------------------------------------------
  // Per-debtor edits: the body of each `prev.map(d => d.id === id ? … : d)`
  // ---------------------------------------------------------------------

  /** The rows whose id differs from `tId`, in order: `filter(t => t.id !== tId)`. */
  function RemoveId(ts: seq<Transaction>, tId: string): (r: seq<Transaction>)
    ensures |r| <= |ts|
    ensures forall i :: 0 <= i < |r| ==> r[i].id != tId && r[i] in ts
    ensures forall i :: 0 <= i < |ts| && ts[i].id != tId ==> ts[i] in r
    ensures (forall i :: 0 <= i < |ts| ==> ts[i].id != tId) ==> r == ts
    decreases |ts|
  {
    if |ts| == 0 then []
    else if ts[0].id == tId then RemoveId(ts[1..], tId)
    else [ts[0]] + RemoveId(ts[1..], tId)
  }

  /** The rows whose id is `tId`: what a delete takes away. */
  function WithId(ts: seq<Transaction>, tId: string): (r: seq<Transaction>)
    ensures forall i :: 0 <= i < |r| ==> r[i].id == tId && r[i] in ts
    decreases |ts|
  {
    if |ts| == 0 then []
    else if ts[0].id == tId then [ts[0]] + WithId(ts[1..], tId)
    else WithId(ts[1..], tId)
  }

  /** Removal keeps the survivors in their order: it distributes over concatenation. */
  lemma {:induction false} RemoveIdAppend(a: seq<Transaction>, b: seq<Transaction>, tId: string)
    ensures RemoveId(a + b, tId) == RemoveId(a, tId) + RemoveId(b, tId)
    decreases |a|
  {
    if |a| == 0 {
      assert a + b == b;
    } else {
      assert (a + b)[1..] == a[1..] + b;
      RemoveIdAppend(a[1..], b, tId);
    }
  }

  /** A delete splits the list: what stays plus what goes is what there was. */
  lemma {:induction false} RemoveIdPartition(ts: seq<Transaction>, tId: string)
    ensures multiset(RemoveId(ts, tId)) + multiset(WithId(ts, tId)) == multiset(ts)
    ensures Owed(RemoveId(ts, tId)) + Owed(WithId(ts, tId)) == Owed(ts)
    decreases |ts|
  {
    RemoveIdMultiset(ts, tId);
    RemoveIdOwed(ts, tId);
  }

  lemma {:induction false} RemoveIdMultiset(ts: seq<Transaction>, tId: string)
    ensures multiset(RemoveId(ts, tId)) + multiset(WithId(ts, tId)) == multiset(ts)
    decreases |ts|
  {
    if |ts| > 0 {
      RemoveIdMultiset(ts[1..], tId);
      assert ts == [ts[0]] + ts[1..];
      if ts[0].id == tId {
        assert WithId(ts, tId) == [ts[0]] + WithId(ts[1..], tId);
      } else {
        assert RemoveId(ts, tId) == [ts[0]] + RemoveId(ts[1..], tId);
      }
    }
  }

  lemma {:induction false} RemoveIdOwed(ts: seq<Transaction>, tId: string)
    ensures Owed(RemoveId(ts, tId)) + Owed(WithId(ts, tId)) == Owed(ts)
    decreases |ts|
  {
    if |ts| > 0 {
      RemoveIdOwed(ts[1..], tId);
      Folds.SumCons(ts, Amount);
      if ts[0].id == tId {
        var w := WithId(ts, tId);
        assert w == [ts[0]] + WithId(ts[1..], tId);
        Folds.SumCons(w, Amount);
        assert w[1..] == WithId(ts[1..], tId);
      } else {
        var k := RemoveId(ts, tId);
        assert k == [ts[0]] + RemoveId(ts[1..], tId);
        Folds.SumCons(k, Amount);
        assert k[1..] == RemoveId(ts[1..], tId);
      }
    }
  }

  /** One change applied to the matching debtor, stamped with the time of the change. */
  datatype Edit =
    | Append(t: Transaction, now: int)
    | Remove(tId: string, now: int)
    | Clear(now: int)

  function ApplyEdit(d: Debtor, e: Edit): (r: Debtor)
    ensures r.id == d.id && r.name == d.name && r.phone == d.phone
    ensures r.updatedAt == e.now
  {
    match e
    case Append(t, now) => d.(transactions := d.transactions + [t], updatedAt := now)
    case Remove(tId, now) => d.(transactions := RemoveId(d.transactions, tId), updatedAt := now)
    case Clear(now) => d.(transactions := [], updatedAt := now)
  }

  /** `prev.map(d => d.id === id ? edit(d) : d)`. */
  function UpdateWhere(ds: seq<Debtor>, id: string, e: Edit): (r: seq<Debtor>)
    ensures |r| == |ds|
    ensures forall i :: 0 <= i < |ds| ==> r[i] == if ds[i].id == id then ApplyEdit(ds[i], e) else ds[i]
    decreases |ds|
  {
    if |ds| == 0 then []
    else [if ds[0].id == id then ApplyEdit(ds[0], e) else ds[0]] + UpdateWhere(ds[1..], id, e)
  }

  /** An edit never changes the set of debtor ids, so distinct ids stay distinct. */
  lemma UpdateWhereKeepsIds(ds: seq<Debtor>, id: string, e: Edit)
    ensures Ids(UpdateWhere(ds, id, e)) == Ids(ds)
    ensures UniqueIds(ds) ==> UniqueIds(UpdateWhere(ds, id, e))
  {
    var r := UpdateWhere(ds, id, e);
    forall x | x in Ids(ds) ensures x in Ids(r) {
      var i :| 0 <= i < |ds| && ds[i].id == x;
      assert r[i].id == x;
    }
  }

  /** With distinct ids, only the one matching debtor's contribution to any
      per-debtor sum changes. */
  lemma {:induction false} UpdateWhereSum(ds: seq<Debtor>, id: string, e: Edit, k: nat, g: Debtor -> int)
    requires UniqueIds(ds)
    requires k < |ds| && ds[k].id == id
    ensures Folds.Sum(UpdateWhere(ds, id, e), g) == Folds.Sum(ds, g) - g(ds[k]) + g(ApplyEdit(ds[k], e))
    decreases |ds|
  {
    var r := UpdateWhere(ds, id, e);
    Folds.SumCons(ds, g);
    Folds.SumCons(r, g);
    if k == 0 {
      forall i | 0 <= i < |ds[1..]| ensures ds[1..][i].id != id {
        assert ds[i + 1].id != ds[0].id;
      }
      assert r[1..] == ds[1..];
    } else {
      assert ds[0].id != id by {
        assert ds[0].id != ds[k].id;
      }
      assert r[1..] == UpdateWhere(ds[1..], id, e);
      UpdateWhereSum(ds[1..], id, e, k - 1, g);
    }
  }

  // ---------------------------------------------------------------------
  // The handlers
  // ---------------------------------------------------------------------

  /** `handleAddPerson`: a whitespace-only name changes nothing; otherwise a
      debtor with the trimmed name and no items goes to the front. */
  function AddPerson(ds: seq<Debtor>, name: string, freshId: string, now: int): (r: seq<Debtor>)
    ensures (forall i :: 0 <= i < |name| ==> Text.IsSpace(name[i])) ==> r == ds
    ensures (exists i :: 0 <= i < |name| && !Text.IsSpace(name[i])) ==>
              && |r| == |ds| + 1
              && r[1..] == ds
              && r[0].id == freshId
              && r[0].name == Text.Trim(name) && r[0].name != []
              && r[0].transactions == []
              && r[0].phone.None? && r[0].updatedAt == now
  {
    var trimmed := Text.Trim(name);
    if trimmed == [] then ds
    else [Debtor(freshId, trimmed, None, [], now)] + ds
  }

  /** `handleAddTransaction`: every debtor with the id gets one item appended,
      stamped with the fresh id and the time; everything else is left as it was. */
  function AddTransaction(ds: seq<Debtor>, debtorId: string, draft: Draft, txId: string, now: int): (r: seq<Debtor>)
    ensures |r| == |ds|
    ensures forall i :: 0 <= i < |ds| && ds[i].id != debtorId ==> r[i] == ds[i]
    ensures forall i :: 0 <= i < |ds| && ds[i].id == debtorId ==>
              && r[i].id == ds[i].id && r[i].name == ds[i].name
              && r[i].phone == ds[i].phone && r[i].updatedAt == now
              && |r[i].transactions| == |ds[i].transactions| + 1
              && r[i].transactions[..|ds[i].transactions|] == ds[i].transactions
              && r[i].transactions[|ds[i].transactions|] == Transaction(txId, draft.amount, draft.description, now, draft.kind)
  {
    var r := UpdateWhere(ds, debtorId, Append(Stamp(draft, txId, now), now));
    assert forall i :: 0 <= i < |ds| && ds[i].id == debtorId ==>
      r[i].transactions[..|ds[i].transactions|] == ds[i].transactions;
    r
  }

  /** `handleDeleteTransaction`: the matching debtor loses exactly the items
      with that id; the others keep their order; nobody else changes. */
  function DeleteTransaction(ds: seq<Debtor>, debtorId: string, tId: string, now: int): (r: seq<Debtor>)
    ensures |r| == |ds|
    ensures forall i :: 0 <= i < |ds| && ds[i].id != debtorId ==> r[i] == ds[i]
    ensures forall i :: 0 <= i < |ds| && ds[i].id == debtorId ==>
              && r[i].id == ds[i].id && r[i].name == ds[i].name
              && r[i].phone == ds[i].phone && r[i].updatedAt == now
              && r[i].transactions == RemoveId(ds[i].transactions, tId)
              && multiset(r[i].transactions) + multiset(WithId(ds[i].transactions, tId)) == multiset(ds[i].transactions)
  {
    var r := UpdateWhere(ds, debtorId, Remove(tId, now));
    forall i | 0 <= i < |ds| && ds[i].id == debtorId
      ensures multiset(r[i].transactions) + multiset(WithId(ds[i].transactions, tId)) == multiset(ds[i].transactions)
    {
      RemoveIdPartition(ds[i].transactions, tId);
    }
    r
  }

  /** `handleClearAllTransactions`: only the matching debtor's list is emptied. */
  function ClearAllTransactions(ds: seq<Debtor>, debtorId: string, now: int): (r: seq<Debtor>)
    ensures |r| == |ds|
    ensures forall i :: 0 <= i < |ds| && ds[i].id != debtorId ==> r[i] == ds[i]
    ensures forall i :: 0 <= i < |ds| && ds[i].id == debtorId ==>
              && r[i].id == ds[i].id && r[i].name == ds[i].name && r[i].transactions == []
              && r[i].phone == ds[i].phone && r[i].updatedAt == now
  {
    UpdateWhere(ds, debtorId, Clear(now))
  }

  /** `prev.filter(d => d.id !== id)`. */
  function DeleteDebtor(ds: seq<Debtor>, id: string): (r: seq<Debtor>)
    ensures |r| <= |ds|
    ensures forall i :: 0 <= i < |r| ==> r[i].id != id
    ensures (forall i :: 0 <= i < |ds| ==> ds[i].id != id) ==> r == ds
    decreases |ds|
  {
    if |ds| == 0 then []
    else if ds[0].id == id then DeleteDebtor(ds[1..], id)
    else [ds[0]] + DeleteDebtor(ds[1..], id)
  }

  /** Deleting keeps exactly the debtors with another id: none is lost, none is made up. */
  lemma {:induction false} DeleteDebtorKeepsOthers(ds: seq<Debtor>, id: string)
    ensures forall i :: 0 <= i < |ds| && ds[i].id != id ==> ds[i] in DeleteDebtor(ds, id)
    ensures forall x :: x in DeleteDebtor(ds, id) ==> x in ds && x.id != id
    decreases |ds|
  {
    if |ds| > 0 {
      DeleteDebtorKeepsOthers(ds[1..], id);
      forall i | 0 <= i < |ds| && ds[i].id != id ensures ds[i] in DeleteDebtor(ds, id) {
        if i > 0 {
          assert ds[i] == ds[1..][i - 1];
        }
      }
    }
  }

  /** Deleting keeps the remaining debtors in their order. */
  lemma {:induction false} DeleteDebtorAppend(a: seq<Debtor>, b: seq<Debtor>, id: string)
    ensures DeleteDebtor(a + b, id) == DeleteDebtor(a, id) + DeleteDebtor(b, id)
    decreases |a|
  {
    if |a| == 0 {
      assert a + b == b;
    } else {
      assert (a + b)[1..] == a[1..] + b;
      DeleteDebtorAppend(a[1..], b, id);
    }
  }

  /** Deleting the id of the one debtor that carries it closes the gap. */
  lemma DeleteDebtorSplit(before: seq<Debtor>, d: Debtor, after: seq<Debtor>)
    requires forall i :: 0 <= i < |before| ==> before[i].id != d.id
    requires forall i :: 0 <= i < |after| ==> after[i].id != d.id
    ensures DeleteDebtor(before + [d] + after, d.id) == before + after
  {
    var id := d.id;
    assert DeleteDebtor([d], id) == [] by {
      assert [d][1..] == [];
    }
    DeleteDebtorAppend(before, [d], id);
    assert DeleteDebtor(before + [d], id) == before;
    DeleteDebtorAppend(before + [d], after, id);
  }

  /** With distinct ids, deleting a present debtor removes exactly that entry. */
  lemma DeleteDebtorAt(ds: seq<Debtor>, k: nat)
    requires UniqueIds(ds)
    requires k < |ds|
    ensures DeleteDebtor(ds, ds[k].id) == ds[..k] + ds[k + 1..]
  {
    var before, after := ds[..k], ds[k + 1..];
    forall i | 0 <= i < |before| ensures before[i].id != ds[k].id {
      assert before[i] == ds[i];
    }
    forall i | 0 <= i < |after| ensures after[i].id != ds[k].id {
      assert after[i] == ds[k + 1 + i];
    }
    DeleteDebtorSplit(before, ds[k], after);
    assert ds == before + [ds[k]] + after;
  }

  /** Deleting a present debtor takes exactly its share off the total. */
  lemma DeleteDebtorTotals(ds: seq<Debtor>, k: nat)
    requires UniqueIds(ds)
    requires k < |ds|
    ensures |DeleteDebtor(ds, ds[k].id)| == |ds| - 1
    ensures TotalReceivable(DeleteDebtor(ds, ds[k].id)) == TotalReceivable(ds) - DebtorOwed(ds[k])
  {
    DeleteDebtorAt(ds, k);
    var before, after := ds[..k], ds[k + 1..];
    assert ds == (before + [ds[k]]) + after;
    Folds.SumAppend(before + [ds[k]], after, DebtorOwed);
    Folds.SumAppend(before, [ds[k]], DebtorOwed);
    Folds.SumAppend(before, after, DebtorOwed);
    Folds.SumCons([ds[k]], DebtorOwed);
    assert [ds[k]][1..] == [];
  }

  // ---------------------------------------------------------------------
  // Smart add
  // ---------------------------------------------------------------------

  /** The matching rule of `handleAIParsed`: either lower-cased name contains the other. */
  predicate NameMatches(debtorName: string, parsedName: string)
  {
    var a := Text.Lower(debtorName);
    var b := Text.Lower(parsedName);
    Text.Includes(a, b) || Text.Includes(b, a)
  }

  /** `debtors.find(…)`: the position of the first matching debtor. */
  function FindMatch(ds: seq<Debtor>, name: string): (r: Option<nat>)
    ensures r.Some? ==> r.value < |ds| && NameMatches(ds[r.value].name, name)
    ensures r.Some? ==> forall j :: 0 <= j < r.value ==> !NameMatches(ds[j].name, name)
    ensures r.None? <==> forall j :: 0 <= j < |ds| ==> !NameMatches(ds[j].name, name)
    decreases |ds|
  {
    if |ds| == 0 then None
    else if NameMatches(ds[0].name, name) then Some(0)
    else match FindMatch(ds[1..], name)
      case None => None
      case Some(k) => Some(k + 1)
  }

  /** The item a smart-add reply becomes: always a debt. */
  function ParsedItem(data: AIParsed, txId: string, now: int): Transaction
  {
    Transaction(txId, data.amount, data.description, now, Debt)
  }

  /** `handleAIParsed`: one debt goes to the first debtor whose name matches,
      or a new debtor holding just that debt is put at the front. */
  function SmartAdd(ds: seq<Debtor>, data: AIParsed, newDebtorId: string, txId: string, now: int): (r: seq<Debtor>)
    ensures FindMatch(ds, data.name).Some? ==> |r| == |ds|
    ensures FindMatch(ds, data.name).None? ==>
              && |r| == |ds| + 1 && r[1..] == ds
              && r[0].id == newDebtorId && r[0].name == data.name
              && r[0].transactions == [ParsedItem(data, txId, now)]
              && r[0].phone.None? && r[0].updatedAt == now
  {
    match FindMatch(ds, data.name)
    case Some(k) => AddTransaction(ds, ds[k].id, Draft(data.amount, data.description, Debt), txId, now)
    case None => [Debtor(newDebtorId, data.name, None, [ParsedItem(data, txId, now)], now)] + ds
  }

  // ---------------------------------------------------------------------
  // Effects on the totals and on id uniqueness
  // ---------------------------------------------------------------------

  /** Adding an item to a present debtor raises the total by its amount and
      the item count by one; an absent id changes nothing. */
  lemma AddTransactionTotals(ds: seq<Debtor>, debtorId: string, draft: Draft, txId: string, now: int)
    requires UniqueIds(ds)
    ensures var r := AddTransaction(ds, debtorId, draft, txId, now);
      && UniqueIds(r) && Ids(r) == Ids(ds)
      && (debtorId in Ids(ds) ==> TotalReceivable(r) == TotalReceivable(ds) + draft.amount)
      && (debtorId in Ids(ds) ==> ItemCount(r) == ItemCount(ds) + 1)
      && (debtorId !in Ids(ds) ==> r == ds)
  {
    var e := Append(Stamp(draft, txId, now), now);
    UpdateWhereKeepsIds(ds, debtorId, e);
    if debtorId in Ids(ds) {
      var k :| 0 <= k < |ds| && ds[k].id == debtorId;
      UpdateWhereSum(ds, debtorId, e, k, DebtorOwed);
      UpdateWhereSum(ds, debtorId, e, k, ItemsOf);
      OwedSnoc(ds[k].transactions, Stamp(draft, txId, now));
    } else {
      var r := AddTransaction(ds, debtorId, draft, txId, now);
      assert forall i :: 0 <= i < |ds| ==> ds[i].id != debtorId;
      assert r == ds;
    }
  }

  /** Deleting an item lowers the matching debtor's total by exactly the
      amounts of the removed rows. */
  lemma DeleteTransactionTotals(ds: seq<Debtor>, debtorId: string, tId: string, now: int, k: nat)
    requires UniqueIds(ds)
    requires k < |ds| && ds[k].id == debtorId
    ensures var r := DeleteTransaction(ds, debtorId, tId, now);
      && UniqueIds(r) && Ids(r) == Ids(ds)
      && TotalReceivable(r) == TotalReceivable(ds) - Owed(WithId(ds[k].transactions, tId))
  {
    UpdateWhereKeepsIds(ds, debtorId, Remove(tId, now));
    UpdateWhereSum(ds, debtorId, Remove(tId, now), k, DebtorOwed);
    RemoveIdPartition(ds[k].transactions, tId);
  }

  /** Clearing a debtor takes its whole total and all its items off the header. */
  lemma ClearAllTotals(ds: seq<Debtor>, debtorId: string, now: int, k: nat)
    requires UniqueIds(ds)
    requires k < |ds| && ds[k].id == debtorId
    ensures var r := ClearAllTransactions(ds, debtorId, now);
      && UniqueIds(r) && Ids(r) == Ids(ds)
      && TotalReceivable(r) == TotalReceivable(ds) - DebtorOwed(ds[k])
      && ItemCount(r) == ItemCount(ds) - |ds[k].transactions|
  {
    UpdateWhereKeepsIds(ds, debtorId, Clear(now));
    UpdateWhereSum(ds, debtorId, Clear(now), k, DebtorOwed);
    UpdateWhereSum(ds, debtorId, Clear(now), k, ItemsOf);
  }

  /** A new person changes neither total and, with a fresh id, keeps ids distinct. */
  lemma AddPersonTotals(ds: seq<Debtor>, name: string, freshId: string, now: int)
    requires UniqueIds(ds) && freshId !in Ids(ds)
    ensures var r := AddPerson(ds, name, freshId, now);
      && UniqueIds(r)
      && TotalReceivable(r) == TotalReceivable(ds)
      && ItemCount(r) == ItemCount(ds)
  {
    var r := AddPerson(ds, name, freshId, now);
    if r != ds {
      PrependTotals(ds, r[0]);
    }
  }

  lemma PrependTotals(ds: seq<Debtor>, d: Debtor)
    requires UniqueIds(ds) && d.id !in Ids(ds)
    ensures UniqueIds([d] + ds)
    ensures TotalReceivable([d] + ds) == DebtorOwed(d) + TotalReceivable(ds)
    ensures ItemCount([d] + ds) == |d.transactions| + ItemCount(ds)
  {
    var r := [d] + ds;
    assert r[1..] == ds;
    Folds.SumCons(r, DebtorOwed);
    Folds.SumCons(r, ItemsOf);
    forall i, j | 0 <= i < j < |r| ensures r[i].id != r[j].id {
      if i == 0 {
        assert r[j].id in Ids(ds) by {
          assert r[j] == ds[j - 1];
        }
      }
    }
  }

  /** Smart add raises the total by the parsed amount and the item count by
      one, on either route, and keeps ids distinct when the new id is fresh. */
  lemma SmartAddTotals(ds: seq<Debtor>, data: AIParsed, newDebtorId: string, txId: string, now: int)
    requires UniqueIds(ds) && newDebtorId !in Ids(ds)
    ensures var r := SmartAdd(ds, data, newDebtorId, txId, now);
      && UniqueIds(r)
      && TotalReceivable(r) == TotalReceivable(ds) + data.amount
      && ItemCount(r) == ItemCount(ds) + 1
  {
    match FindMatch(ds, data.name)
    case Some(k) =>
      assert ds[k].id in Ids(ds);
      AddTransactionTotals(ds, ds[k].id, Draft(data.amount, data.description, Debt), txId, now);
    case None =>
      var d := Debtor(newDebtorId, data.name, None, [ParsedItem(data, txId, now)], now);
      PrependTotals(ds, d);
      Folds.SumCons(d.transactions, Amount);
      assert d.transactions[1..] == [];
  }

  /** On the matching route, the debt lands on the first matching debtor and
      no other debtor changes. */
  lemma SmartAddRoutesToFirstMatch(ds: seq<Debtor>, data: AIParsed, newDebtorId: string, txId: string, now: int, k: nat)
    requires UniqueIds(ds)
    requires k < |ds| && NameMatches(ds[k].name, data.name)
    requires forall j :: 0 <= j < k ==> !NameMatches(ds[j].name, data.name)
    ensures var r := SmartAdd(ds, data, newDebtorId, txId, now);
      && |r| == |ds|
      && r[k].transactions == ds[k].transactions + [ParsedItem(data, txId, now)]
      && forall j :: 0 <= j < |ds| && j != k ==> r[j] == ds[j]
  {
    var m := FindMatch(ds, data.name);
    assert m == Some(k);
    var r := SmartAdd(ds, data, newDebtorId, txId, now);
    assert r[k].transactions == r[k].transactions[..|ds[k].transactions|] + [r[k].transactions[|ds[k].transactions|]];
    forall j | 0 <= j < |ds| && j != k ensures r[j] == ds[j] {
      assert ds[j].id != ds[k].id;
    }
  }
}

=== FILE: login_screen.dfy ===
/**
 The sign-in form (components/LoginScreen.tsx): username normalisation on
 every keystroke, the submit validation and dispatch, the error a failed or
 throwing handler leaves, and the login/register mode toggle. The handlers
 themselves are passed in by App.tsx; here a submission yields the request
 it makes, and the handler's reply is an input.
 */
module LoginScreen {
  import Text

  const FillAllFields: string := "Preencha todos os campos."
  const NameTaken: string := "Este nome de comércio já existe."
  const WrongCredentials: string := "Nome ou senha incorretos."
  const ProcessingFailed: string := "Erro ao processar."

  datatype Form = Form(registering: bool, username: string, password: string, error: string, loading: bool)

  /** What the username field stores: lower-cased, every whitespace
      character removed. */
  function Normalize(raw: string): (r: string)
    ensures forall i :: 0 <= i < |r| ==> !Text.IsSpace(r[i]) && !Text.IsUpper(r[i])
    ensures |r| <= |raw|
    ensures r == Text.Lower(Text.StripSpaces(raw))
  {
    Text.LowerStripCommute(raw);
    Text.StripSpaces(Text.Lower(raw))
  }

  /** Normalising an already normalised name changes nothing. */
  lemma NormalizeIdempotent(raw: string)
    ensures Normalize(Normalize(raw)) == Normalize(raw)
  {
    var n := Normalize(raw);
    Text.LowerStripCommute(Text.Lower(raw));
    Text.LowerIdempotent(raw);
    assert Text.Lower(n) == Text.StripSpaces(Text.Lower(raw));
  }

  /** Names already in normal form are exactly the fixed points. */
  lemma NormalizeFixedPoint(s: string)
    requires forall i :: 0 <= i < |s| ==> !Text.IsSpace(s[i]) && !Text.IsUpper(s[i])
    ensures Normalize(s) == s
  {
    assert Text.Lower(s) == s;
  }

  function TypeUsername(f: Form, raw: string): (r: Form)
    ensures r.username == Normalize(raw)
    ensures r.(username := f.username) == f
  {
    f.(username := Normalize(raw))
  }

  function TypePassword(f: Form, raw: string): (r: Form)
    ensures r.password == raw
    ensures r.(password := f.password) == f
  {
    f.(password := raw)
  }

  /** The mode link: flips login/register and clears the error. */
  function Toggle(f: Form): (r: Form)
    ensures r.registering != f.registering
    ensures r.error == ""
    ensures r.username == f.username && r.password == f.password && r.loading == f.loading
  {
    f.(registering := !f.registering, error := "")
  }

  /** Toggling twice restores the mode. */
  lemma ToggleTwice(f: Form)
    ensures Toggle(Toggle(f)) == f.(error := "")
  {
  }

  /** The handler a submission calls. */
  datatype Request = LoginRequest(user: string, pass: string) | RegisterRequest(user: string, pass: string)

  datatype Submission = Rejected(form: Form) | Pending(request: Request, form: Form)

  /** The synchronous part of `handleSubmit`. */
  function Submit(f: Form): (r: Submission)
    ensures r.Rejected? <==> f.username == "" || f.password == ""
    ensures r.Rejected? ==> r.form == f.(error := FillAllFields)
    ensures r.Pending? ==>
              && r.form == f.(error := "", loading := true)
              && (r.request.RegisterRequest? <==> f.registering)
              && r.request.user == f.username && r.request.pass == f.password
  {
    if f.username == "" || f.password == "" then Rejected(f.(error := FillAllFields))
    else if f.registering then Pending(RegisterRequest(f.username, f.password), f.(error := "", loading := true))
    else Pending(LoginRequest(f.username, f.password), f.(error := "", loading := true))
  }

  /** How the awaited handler ended. */
  datatype Reply = Resolved(success: bool) | Threw

  /** The asynchronous tail of `handleSubmit`: a `false` reply sets the
      mode's own message, a throw sets the generic one, and loading ends. */
  function Settle(f: Form, reply: Reply): (r: Form)
    ensures !r.loading
    ensures reply == Resolved(true) ==> r.error == f.error
    ensures reply == Resolved(false) ==> r.error == (if f.registering then NameTaken else WrongCredentials)
    ensures reply == Threw ==> r.error == ProcessingFailed
    ensures r.registering == f.registering && r.username == f.username && r.password == f.password
  {
    match reply
    case Resolved(ok) =>
      if ok then f.(loading := false)
      else f.(error := if f.registering then NameTaken else WrongCredentials, loading := false)
    case Threw => f.(error := ProcessingFailed, loading := false)
  }

  /** A whole submission: the error is left empty exactly when the handler
      was called and reported success. */
  lemma SubmitThenSettle(f: Form, reply: Reply)
    requires Submit(f).Pending?
    ensures Settle(Submit(f).form, reply).error == "" <==> reply == Resolved(true)
  {
  }
}

=== FILE: text.dfy ===
/**
 The handful of JavaScript string operations the application relies on:
 `toLowerCase`, the `\s` character class, `trim`, `includes` and
 `replace(/\s/g, '')`. A Dafny `char` is a Unicode scalar value, whereas a
 JavaScript string is a sequence of UTF-16 code units; the model treats each
 character as one unit and leaves surrogate pairs out.
 */
module Text {

  /** ECMAScript WhiteSpace and LineTerminator code points: what `\s`
      matches and what `trim` removes. */
  predicate IsSpace(c: char)
  {
    || c == '\t' || c == '\n' || c == '\U{000B}' || c == '\U{000C}' || c == '\r'
    || c == ' ' || c == '\U{00A0}' || c == '\U{1680}'
    || ('\U{2000}' <= c <= '\U{200A}')
    || c == '\U{2028}' || c == '\U{2029}' || c == '\U{202F}' || c == '\U{205F}'
    || c == '\U{3000}' || c == '\U{FEFF}'
  }

  /** Upper-case letters of Basic Latin and Latin-1 whose lower-case form is
      the code point 32 above (the Latin-1 block skips the sign U+00D7). */
  predicate IsUpper(c: char)
  {
    ('A' <= c <= 'Z') || ('\U{00C0}' <= c <= '\U{00DE}' && c != '\U{00D7}')
  }

  /** Unicode's lower-case mapping for the modelled capitals: 32 code points up. */
  function LowerChar(c: char): (r: char)
    ensures !IsUpper(r)
    ensures IsUpper(c) ==> r as int == c as int + 32
    ensures r == c || IsUpper(c)
    ensures IsSpace(r) <==> IsSpace(c)
  {
    if IsUpper(c) then (c as int + 32) as char else c
  }

  /** `s.toLowerCase()`, character by character. */
  function Lower(s: string): (r: string)
    ensures |r| == |s|
    ensures forall i :: 0 <= i < |s| ==> r[i] == LowerChar(s[i])
  {
    seq(|s|, i requires 0 <= i < |s| => LowerChar(s[i]))
  }

  /** `a` and `b` differ at most in the case of modelled letters. */
  predicate SameUpToCase(a: string, b: string)
  {
    && |a| == |b|
    && forall i :: 0 <= i < |a| ==>
         || a[i] == b[i]
         || (IsUpper(a[i]) && b[i] as int == a[i] as int + 32)
         || (IsUpper(b[i]) && a[i] as int == b[i] as int + 32)
  }

  /** What `toLowerCase` is for: strings that differ only in letter case
      lower-case to the same string, so "Sandro" matches "sandro". */
  lemma LowerIgnoresCase(a: string, b: string)
    requires SameUpToCase(a, b)
    ensures Lower(a) == Lower(b)
  {
    forall i | 0 <= i < |a| ensures LowerChar(a[i]) == LowerChar(b[i]) {
      if IsUpper(a[i]) && b[i] as int == a[i] as int + 32 {
        assert !IsUpper(b[i]);
      } else if IsUpper(b[i]) && a[i] as int == b[i] as int + 32 {
        assert !IsUpper(a[i]);
      }
    }
  }

  /** Lower-casing twice is lower-casing once. */
  lemma LowerIdempotent(s: string)
    ensures Lower(Lower(s)) == Lower(s)
  {
    var once := Lower(s);
    forall i | 0 <= i < |s|
      ensures Lower(once)[i] == once[i]
    {
      assert !IsUpper(once[i]);
    }
  }

  /** `s.replace(/\s/g, '')`: every whitespace character dropped, the rest in order. */
  function StripSpaces(s: string): (r: string)
    ensures |r| <= |s|
    ensures forall i :: 0 <= i < |r| ==> !IsSpace(r[i]) && r[i] in s
    ensures (forall i :: 0 <= i < |s| ==> !IsSpace(s[i])) ==> r == s
    decreases |s|
  {
    if |s| == 0 then []
    else if IsSpace(s[0]) then StripSpaces(s[1..])
    else [s[0]] + StripSpaces(s[1..])
  }

  /** Nothing but whitespace is dropped: every other character survives as
      often as the input holds it. */
  lemma {:induction false} StripSpacesKeepsCharacters(s: string)
    ensures forall c :: !IsSpace(c) ==> multiset(StripSpaces(s))[c] == multiset(s)[c]
    decreases |s|
  {
    if |s| > 0 {
      StripSpacesKeepsCharacters(s[1..]);
      assert s == [s[0]] + s[1..];
      if !IsSpace(s[0]) {
        assert StripSpaces(s) == [s[0]] + StripSpaces(s[1..]);
      }
    }
  }

  /** Stripping keeps the survivors in order: it distributes over concatenation. */
  lemma {:induction false} StripSpacesAppend(a: string, b: string)
    ensures StripSpaces(a + b) == StripSpaces(a) + StripSpaces(b)
    decreases |a|
  {
    if |a| == 0 {
      assert a + b == b;
    } else {
      assert (a + b)[1..] == a[1..] + b;
      StripSpacesAppend(a[1..], b);
    }
  }

  /** Lower-casing neither creates nor removes whitespace, so it commutes with stripping. */
  lemma {:induction false} LowerStripCommute(s: string)
    ensures Lower(StripSpaces(s)) == StripSpaces(Lower(s))
    decreases |s|
  {
    if |s| > 0 {
      assert Lower(s)[1..] == Lower(s[1..]);
      LowerStripCommute(s[1..]);
      if !IsSpace(s[0]) {
        assert Lower([s[0]] + StripSpaces(s[1..])) == [LowerChar(s[0])] + Lower(StripSpaces(s[1..]));
      }
    }
  }

  /** Number of leading whitespace characters. */
  function Leading(s: string): (n: nat)
    ensures n <= |s|
    ensures forall i :: 0 <= i < n ==> IsSpace(s[i])
    ensures n == |s| || !IsSpace(s[n])
    decreases |s|
  {
    if |s| > 0 && IsSpace(s[0]) then 1 + Leading(s[1..]) else 0
  }

  /** Number of trailing whitespace characters. */
  function Trailing(s: string): (n: nat)
    ensures n <= |s|
    ensures forall i :: |s| - n <= i < |s| ==> IsSpace(s[i])
    ensures n == |s| || !IsSpace(s[|s| - n - 1])
    decreases |s|
  {
    if |s| > 0 && IsSpace(s[|s| - 1]) then 1 + Trailing(s[..|s| - 1]) else 0
  }

  /** `s.trim()`: the slice between the leading and the trailing whitespace. */
  function Trim(s: string): (r: string)
    ensures Leading(s) + |r| <= |s|
    ensures r == s[Leading(s)..Leading(s) + |r|]
    ensures forall i :: Leading(s) + |r| <= i < |s| ==> IsSpace(s[i])
    ensures |r| > 0 ==> !IsSpace(r[0]) && !IsSpace(r[|r| - 1])
    ensures r == [] <==> forall i :: 0 <= i < |s| ==> IsSpace(s[i])
  {
    var k := Leading(s);
    if k == |s| then []
    else
      var e := Trailing(s);
      s[k..|s| - e]
  }

  /** `s.startsWith(p)`. */
  predicate StartsWith(s: string, p: string)
  {
    |p| <= |s| && s[..|p|] == p
  }

  /** `hay.includes(needle)`, scanning start positions left to right. */
  predicate Includes(hay: string, needle: string)
    decreases |hay|
  {
    StartsWith(hay, needle) || (|hay| > 0 && Includes(hay[1..], needle))
  }

  /** `needle` occurs in `hay` starting at index `i`. */
  ghost predicate OccursAt(hay: string, needle: string, i: int)
  {
    0 <= i && i + |needle| <= |hay| && hay[i..i + |needle|] == needle
  }

  /** The scan finds the needle exactly when it occurs somewhere. */
  lemma {:induction false} IncludesIff(hay: string, needle: string)
    ensures Includes(hay, needle) <==> exists i :: OccursAt(hay, needle, i)
    decreases |hay|
  {
    if StartsWith(hay, needle) {
      assert OccursAt(hay, needle, 0);
    } else if |hay| > 0 {
      IncludesIff(hay[1..], needle);
      if Includes(hay[1..], needle) {
        var i :| OccursAt(hay[1..], needle, i);
        assert hay[1..][i..i + |needle|] == hay[i + 1..i + 1 + |needle|];
        assert OccursAt(hay, needle, i + 1);
      }
      forall i | OccursAt(hay, needle, i) ensures OccursAt(hay[1..], needle, i - 1) {
        assert i != 0;
        assert hay[1..][i - 1..i - 1 + |needle|] == hay[i..i + |needle|];
      }
    }
  }

  /** Every string includes the empty string. */
  lemma IncludesEmpty(hay: string)
    ensures Includes(hay, "")
  {
    assert StartsWith(hay, "");
  }
}

=== FILE: transaction_history.dfy ===
/**
 The item table of a debtor (components/TransactionHistory.tsx): a copy of
 the list sorted newest first, an empty-state message, a footer total and a
 confirm-then-delete action per row.
 */
module TransactionHistory {
  import opened Types
  import Folds

  /** Newest first: no row is dated after the one above it. */
  predicate DateDescending(s: seq<Transaction>)
  {
    forall i, j :: 0 <= i < j < |s| ==> s[i].date >= s[j].date
  }

  /** The rows dated exactly `d`, in their order in `s`. */
  function DatedAt(s: seq<Transaction>, d: int): (r: seq<Transaction>)
    ensures forall i :: 0 <= i < |r| ==> r[i].date == d
    decreases |s|
  {
    if |s| == 0 then []
    else (if s[0].date == d then [s[0]] else []) + DatedAt(s[1..], d)
  }

  /** Inserts `t` ahead of every row dated no later than it, so that among
      equal dates the inserted row keeps its place in front. */
  function Insert(t: Transaction, s: seq<Transaction>): (r: seq<Transaction>)
    ensures |r| == |s| + 1
    ensures multiset(r) == multiset(s) + multiset{t}
    decreases |s|
  {
    if |s| == 0 || t.date >= s[0].date then [t] + s
    else
      assert s == [s[0]] + s[1..];
      [s[0]] + Insert(t, s[1..])
  }

  /** No row of `s` is dated after `b`. */
  predicate DatedNoLaterThan(s: seq<Transaction>, b: int)
  {
    forall i :: 0 <= i < |s| ==> s[i].date <= b
  }

  lemma {:induction false} InsertBounded(t: Transaction, s: seq<Transaction>, b: int)
    requires DatedNoLaterThan(s, b) && t.date <= b
    ensures DatedNoLaterThan(Insert(t, s), b)
    decreases |s|
  {
    if |s| > 0 && t.date < s[0].date {
      InsertBounded(t, s[1..], b);
    }
  }

  /** Inserting into a newest-first list keeps it newest first. */
  lemma {:induction false} InsertKeepsOrder(t: Transaction, s: seq<Transaction>)
    requires DateDescending(s)
    ensures DateDescending(Insert(t, s))
    decreases |s|
  {
    if |s| > 0 && t.date < s[0].date {
      var rest := Insert(t, s[1..]);
      InsertKeepsOrder(t, s[1..]);
      InsertBounded(t, s[1..], s[0].date);
      var r := [s[0]] + rest;
      forall i, j | 0 <= i < j < |r| ensures r[i].date >= r[j].date {
        if i > 0 {
          assert r[i] == rest[i - 1] && r[j] == rest[j - 1];
        }
      }
    }
  }

  /** `[...transactions].sort((a, b) => b.date - a.date)`: a stable sort
      (as Array.prototype.sort is required to be) on a copy, newest first. */
  function SortByDateDesc(ts: seq<Transaction>): (r: seq<Transaction>)
    ensures |r| == |ts|
    ensures multiset(r) == multiset(ts)
    ensures DateDescending(r)
    decreases |ts|
  {
    if |ts| == 0 then []
    else
      assert ts == [ts[0]] + ts[1..];
      var rest := SortByDateDesc(ts[1..]);
      InsertKeepsOrder(ts[0], rest);
      Insert(ts[0], rest)
  }

  lemma {:induction false} InsertDatedAt(t: Transaction, s: seq<Transaction>, d: int)
    ensures DatedAt(Insert(t, s), d) == DatedAt([t], d) + DatedAt(s, d)
    decreases |s|
  {
    if |s| == 0 || t.date >= s[0].date {
      assert ([t] + s)[1..] == s;
      assert DatedAt([t], d) == (if t.date == d then [t] else []) by {
        assert [t][1..] == [];
      }
    } else {
      var rest := Insert(t, s[1..]);
      assert ([s[0]] + rest)[1..] == rest;
      InsertDatedAt(t, s[1..], d);
      assert [t][1..] == [];
    }
  }

  /** Stability: rows sharing a date come out in their input order. */
  lemma {:induction false} SortIsStable(ts: seq<Transaction>, d: int)
    ensures DatedAt(SortByDateDesc(ts), d) == DatedAt(ts, d)
    decreases |ts|
  {
    if |ts| > 0 {
      var rest := SortByDateDesc(ts[1..]);
      assert SortByDateDesc(ts) == Insert(ts[0], rest);
      InsertDatedAt(ts[0], rest, d);
      SortIsStable(ts[1..], d);
      assert DatedAt([ts[0]], d) == (if ts[0].date == d then [ts[0]] else []) by {
        assert [ts[0]][1..] == [];
      }
    }
  }

  /** Inserting a row adds its amount to the total. */
  lemma {:induction false} InsertOwed(t: Transaction, s: seq<Transaction>)
    ensures Owed(Insert(t, s)) == t.amount + Owed(s)
    decreases |s|
  {
    if |s| == 0 || t.date >= s[0].date {
      Folds.SumCons([t] + s, Amount);
      assert ([t] + s)[1..] == s;
    } else {
      var rest := Insert(t, s[1..]);
      Folds.SumCons([s[0]] + rest, Amount);
      assert ([s[0]] + rest)[1..] == rest;
      InsertOwed(t, s[1..]);
      Folds.SumCons(s, Amount);
    }
  }

  /** Sorting does not change the sum of the amounts. */
  lemma {:induction false} SortKeepsOwed(ts: seq<Transaction>)
    ensures Owed(SortByDateDesc(ts)) == Owed(ts)
    decreases |ts|
  {
    if |ts| > 0 {
      InsertOwed(ts[0], SortByDateDesc(ts[1..]));
      SortKeepsOwed(ts[1..]);
      Folds.SumCons(ts, Amount);
    }
  }

  /** What the component renders: the empty-state message, or the sorted
      rows with the footer total. */
  datatype View = EmptyState | Table(rows: seq<Transaction>, total: int)

  function Render(ts: seq<Transaction>): (v: View)
    ensures v.EmptyState? <==> |ts| == 0
    ensures v.Table? ==> multiset(v.rows) == multiset(ts) && DateDescending(v.rows)
    ensures v.Table? ==> v.rows == SortByDateDesc(ts)
    ensures v.Table? ==> v.total == Owed(ts)
  {
    var sorted := SortByDateDesc(ts);
    if |sorted| == 0 then EmptyState
    else
      SortKeepsOwed(ts);
      Table(sorted, Owed(sorted))
  }

  /** The paid button of row `i`: after confirmation it hands that row's own
      id to `onDelete`; without confirmation nothing is deleted. */
  function PayRow(rows: seq<Transaction>, i: nat, confirmed: bool): (r: Option<string>)
    requires i < |rows|
    ensures r.Some? <==> confirmed
    ensures r.Some? ==> r.value == rows[i].id
  {
    if confirmed then Some(rows[i].id) else None
  }
}

=== FILE: types.dfy ===
/**
 The records the ledger keeps (types.ts). Amounts are integer cents, dates
 are integer timestamps, identifiers are opaque strings.
 */
module Types {
  import Folds

  datatype Option<T> = None | Some(value: T)

  /** `TransactionType`: an owed item, or (kept for compatibility) a payment. */
  datatype TxType = Debt | Payment

  /** `Transaction`; `kind` stands for the source's `type` field. */
  datatype Transaction = Transaction(id: string, amount: int, description: string, date: int, kind: TxType)

  /** `Debtor`: a customer with an ordered list of recorded items. */
  datatype Debtor = Debtor(id: string, name: string, phone: Option<string>, transactions: seq<Transaction>, updatedAt: int)

  /** `Omit<Transaction, 'id' | 'date'>`: what a caller supplies when adding an item. */
  datatype Draft = Draft(amount: int, description: string, kind: TxType)

  /** `AIParsedTransaction`: the structured reply of the smart-add parser. */
  datatype AIParsed = AIParsed(name: string, amount: int, description: string)

  /** The transaction a draft becomes once it is given an id and a date. */
  function Stamp(d: Draft, id: string, date: int): Transaction
  {
    Transaction(id, d.amount, d.description, date, d.kind)
  }

  function Amount(t: Transaction): int
  {
    t.amount
  }

  /** `transactions.reduce((acc, t) => acc + t.amount, 0)`: the unsigned sum,
      blind to each transaction's type. */
  function Owed(ts: seq<Transaction>): int
  {
    Folds.Sum(ts, Amount)
  }

  predicate AllDebt(ts: seq<Transaction>)
  {
    forall i :: 0 <= i < |ts| ==> ts[i].kind == Debt
  }

  predicate UniqueIds(ds: seq<Debtor>)
  {
    forall i, j :: 0 <= i < j < |ds| ==> ds[i].id != ds[j].id
  }

  function Ids(ds: seq<Debtor>): set<string>
  {
    set i | 0 <= i < |ds| :: ds[i].id
  }

  /** The owed total of a list with one more item is the old total plus its amount. */
  lemma OwedSnoc(ts: seq<Transaction>, t: Transaction)
    ensures Owed(ts + [t]) == Owed(ts) + t.amount
  {
    Folds.SumAppend(ts, [t], Amount);
    Folds.SumCons([t], Amount);
  }
}
